=== FILE: README.md ===
# Email harvester: the candidate pipeline and the crawl bookkeeping

This project models the core of a small command-line crawler
(`src/main.rs`). Starting from a seed URL, the crawler walks pages
breadth-first up to a depth limit and harvests email addresses from their
text. The model has two halves.

**One regex hit to one address, or nothing** (`rot13.dfy`, `emails.dfy`):
- Normalisation trims the hit, strips its leading non-alphanumeric
  characters and lower-cases it.
- The ROT13 heuristic decodes the hit and asks whether the last dot-label
  after the `@` is on the TLD allow-list `COMMON_TLDS`. If it is, the hit
  counts as obfuscated.
- The form the heuristic chose, decoded or plain, must pass the anchored
  address check `local@label(.label)*.tld` with an allowed TLD. There is
  no fallback to the other form.
- A form that contains an asset extension such as `.png` or `.js` is
  dropped.

**The crawl loop of one worker** (`links.dfy`, `crawl.dfy`). It is a pure
transition over the shared state:
- the FIFO queue of `(url, depth)` entries;
- the set of URLs ever queued ("visited");
- the set of emails found.

One iteration works like this:
- It stops when the deadline has passed or the queue is empty.
- Otherwise it pops the front entry. An entry deeper than the limit is
  skipped.
- It fetches the page and runs every hit through the pipeline. An email
  is printed only on its first insertion, and in strict mode only when it
  ends with the seed's host, compared case-insensitively.
- While the depth allows, it pushes every link not yet visited, one level
  deeper, and marks the link visited at once.

The seed URL gets `http://` unless it already starts with `http://` or
`https://`, compared case-sensitively, so `HTTP://example.com` is
prefixed as well (`Links.NormalizeSeedUrl`). It
is queued at depth 0 and marked visited.

Inputs from the outside world are parameters:
- `fetch: string -> Option<Page>` is the HTTP request plus the regex scan
  of the body. It yields the hits and the raw `href`s, or nothing when
  the request or the body read fails.
- `resolve: (href, base) -> Option<string>` is URL parsing and joining.
- The clock is one boolean per iteration saying whether the deadline had
  already passed.

Some behaviour of the source is visible in the proved statements:
- `fr` and `se` are each other's ROT13 image, and both are on the list.
  So a plain address such as `a@b.fr` is taken for an obfuscated one and
  recorded as `n@o.se` (`EmailExamples.FrenchAddressIsMisdecoded`). They
  are the only two listed TLDs with a listed image (`TldImages.ListedImages`).
  Every other clean address with a listed TLD is kept as written, unless
  it contains an asset extension (`Emails.ProcessKeepsUnflagged`).
  Decoding is chosen on the TLD alone. A flagged hit that decodes to
  something invalid is dropped, never kept in its raw form
  (`Emails.Process`).
- One might expect the asset filter to be what drops `foo@bar.png`. In
  the code it never reaches that filter: the address check
  already rejects it, because `png` is not an allowed TLD. The model
  follows the code. The asset filter would reject it as well
  (`EmailExamples.ImageNameIsDropped`). The asset filter is plain
  substring search, so a `.js` anywhere in an address, as in
  `x@a.jsmith.com`, drops it too.
- The strict-mode domain match is a plain suffix test. So
  `x@badexample.com` matches the domain `example.com`, and an empty domain
  matches everything (`Crawl.ShouldPrint`).
- The depth guard at the top of the loop never fires. Entries are only
  ever queued at depth at most the limit (`Crawl.DepthGuardIdle`,
  `Crawl.Inv`).
- Normalisation strips a leading `.`, `_`, `%`, `+` or `-` from the local
  part, even though the address pattern allows these characters.
- `COMMON_TLDS` lists `mil`, `gov` and `edu` twice. The model keeps the
  list as written; only membership is used.

## Model

| member | source | states |
|---|---|---|
| Strings.ToLower | src/main.rs:152 | lower-casing keeps the length and leaves no upper-case letter; at every position an upper-case letter becomes the same letter in lower case and any other character is kept |
| Strings.ToLowerKeepsLast | src/main.rs:152 | lower-casing never turns the last character into white space |
| Strings.ToLowerKeepsLowered | src/main.rs:152 | lower-casing a string without upper-case letters returns it unchanged |
| Strings.Trim | src/main.rs:151 | the trimmed string neither starts nor ends with white space, and a string without white space is returned unchanged |
| Strings.TrimKeepsTrimmed | src/main.rs:151 | a string that neither starts nor ends with white space is its own trim |
| Strings.DropWhile | src/main.rs:151 | `trim_start_matches`: the result is a suffix of the input, every dropped character matched, and the first kept one does not |
| Strings.ContainsIff | src/main.rs:267 | the substring check used by `contains` holds exactly when the needle occurs at some position |
| Strings.Split | src/main.rs:245-246 | `split` yields at least one piece and no piece contains the separator |
| Strings.SplitSingle | src/main.rs:245 | a string splits into exactly one piece exactly when it does not contain the separator |
| Strings.SplitFirstTwo | src/main.rs:245 | with two or more pieces, the string is the first piece, the separator, the second piece, then either nothing or text starting with the separator |
| Strings.JoinSplit | src/main.rs:245-246 | joining the pieces of a split with the separator gives back the string |
| Strings.SplitJoin | src/main.rs:245-246 | splitting a join of separator-free pieces gives back the pieces |
| Rot13.DecodeChar | src/main.rs:253-257 | a letter moves 13 places round the alphabet of its own case, and any other character is unchanged |
| Rot13.DecodeCharTwice | src/main.rs:254-255 | shifting a character by 13 twice gives it back |
| Rot13.Decode | src/main.rs:251-259 | `rot13_decode` keeps the length, the case of every position, and every non-letter in place, and moves every letter 13 places round its alphabet |
| Rot13.DecodeInvolution | src/main.rs:251-259 | decoding twice returns the original string |
| Rot13.DecodeMovesLetters | src/main.rs:251-259 | a string with a letter in it differs from its decoding |
| Rot13.DecodeSplit | src/main.rs:244-246 | decoding commutes with splitting on `@` or `.`, so the heuristic's fields are the decoded fields |
| Rot13.DecodeJoin | src/main.rs:244-246 | decoding commutes with joining on a non-letter |
| Emails.SecondField | src/main.rs:245 | `split('@').nth(1).unwrap_or("")` is empty when there is no separator, and otherwise is the text between the first separator and the next one (or the end) |
| Emails.Normalize | src/main.rs:151-152 | the normalised hit has no upper-case letter, is no longer than the hit, and starts with a letter or digit |
| Emails.NormalizeLowersSuffix | src/main.rs:151-152 | the normalised hit is the lower-cased suffix of the trimmed hit left after dropping a prefix made only of characters that are neither letters nor digits |
| Emails.NormalizeEndsClean | src/main.rs:151-152 | the normalised hit never ends in white space |
| Emails.NormalizeIdempotent | src/main.rs:151-152 | normalising a normalised hit changes nothing |
| Emails.ProcessNormalized | src/main.rs:151-175 | the pipeline gives the same outcome for a hit and for its normal form |
| Emails.NormalizeKeepsClean | src/main.rs:151-152 | normalising a lower-case string of address characters that starts with a letter or digit changes nothing |
| Emails.Process | src/main.rs:151-175 | an accepted address is valid, not an asset name and lower-case; when the heuristic fires it is the decoded hit and differs from the plain one, otherwise it is the plain normalised hit |
| Emails.ValidEmailDecomposes | src/main.rs:271-284 | a valid address splits at its single `@` into a local part and well-formed domain labels |
| Emails.ValidEmailAssembled | src/main.rs:271-284 | `local@l1.….ln` built from well-formed pieces is valid exactly when the lower-cased last label is on the allow-list |
| Emails.ValidEmailCharacterization | src/main.rs:271-284 | a string is valid exactly when it is such an assembly with a listed TLD |
| Emails.ValidEmailEndsWithLetter | src/main.rs:274 | every valid address ends with a letter of its TLD |
| Emails.ValidEmailChangedByDecode | src/main.rs:155-162 | a valid address, or a string whose decoding is valid, differs from its decoding |
| Emails.WellFormedSplits | src/main.rs:271-284 | splitting an assembled address at `@` and then at `.` gives back its local part and labels |
| Emails.DecodeWellFormed | src/main.rs:155-158 | decoding a well-formed address decodes each piece separately and keeps it well formed |
| Emails.AssetFilenameListed | src/main.rs:262-268 | `is_asset_filename` holds exactly when one of the 12 listed extensions occurs in the string |
| Emails.AssetFilenameIff | src/main.rs:262-268 | the same, with the position of the occurrence made explicit |
| Emails.HeuristicDecodesLastLabel | src/main.rs:242-248 | the heuristic holds exactly when the decoded last dot-label of the undecoded second `@`-field is listed |
| Emails.HeuristicOnWellFormed | src/main.rs:242-248 | for a well-formed address the heuristic fires exactly when the decoding of its last label is listed |
| Emails.CleanAddressFacts | src/main.rs:151-157 | a clean lower-case address survives normalisation, and the heuristic on it looks only at its last label |
| Emails.ProcessDecodesFlagged | src/main.rs:155-175 | a clean address whose last label decodes to a listed TLD is recorded decoded, unless the decoding is an asset name |
| Emails.ProcessKeepsUnflagged | src/main.rs:155-175 | a clean address whose last label does not decode to a listed TLD is recorded as written exactly when its TLD is listed and it is not an asset name |
| EmailExamples.AssetFilenameFromFirstDot | src/main.rs:263-267 | every extension starts with a dot, so text before the first dot never decides the asset filter |
| EmailExamples.NotAssetWithoutMarkers | src/main.rs:263-267 | a string without any of the letters p, g, j, r, x, i and s is never an asset name |
| EmailExamples.ObfuscatedAddressIsDecoded | src/main.rs:155-175 | the hit `snzvyl@rknzcyr.pbz` is recorded as `family@example.com` |
| EmailExamples.FrenchAddressIsMisdecoded | src/main.rs:242-248 | the plain hit `a@b.fr` is recorded as `n@o.se` |
| EmailExamples.ImageNameIsDropped | src/main.rs:262-268 | `foo@bar.png` yields nothing, and it is also an asset name |
| EmailExamples.UnlistedTldIsInvalid | src/main.rs:279-281 | `someone@example.xx` is not a valid address |
| TldImages.ListedImages | src/main.rs:12-16 | among the listed TLDs, exactly `fr` and `se` have a ROT13 image that is listed too |
| TldImages.FrSeImages | src/main.rs:12-16 | `fr` and `se` are listed and are each other's ROT13 image |
| TldImages.ListedAddressKept | src/main.rs:155-175 | a clean address with a listed TLD other than `fr` and `se` is recorded as written unless it looks like an asset |
| TldImages.FrSeAddressSwapped | src/main.rs:242-248 | a clean address ending in `fr` or `se` is recorded only in ROT13 form, which ends in the other TLD |
| Links.NormalizeSeedUrl | src/main.rs:84-88 | the seed URL always starts with `http://` or `https://`, is either the input or `http://` plus the input, ends with the input, and is the input when it already has a web scheme |
| Links.NormalizeSeedUrlIdempotent | src/main.rs:84-88 | normalising a normalised seed changes nothing |
| Links.NormalizeSeedUrlPrefixes | src/main.rs:84-88 | the prefix is added exactly when the input has neither scheme, and it adds seven characters |
| Links.WebHrefNotSkipped | src/main.rs:295-302 | an `href` starting with `http://` or `https://` is never skipped by the prefix filter |
| Links.UpperCaseHrefNotSkipped | src/main.rs:295-302 | the prefix filter is case-sensitive: an `href` starting with an upper-case letter, such as `MAILTO:...`, is never skipped |
| Links.ExtractLinks | src/main.rs:287-328 | a URL is among a page's links exactly when some unskipped `href` resolves to it, and there are no more links than `href`s |
| Links.ExtractLinksAppend | src/main.rs:292-325 | `href`s are handled one at a time and in order: the links of a concatenation are the concatenated links |
| Links.ExtractLinksIdentity | src/main.rs:295-302 | with a resolver that accepts everything, the links are exactly the `href`s the prefix filter keeps, in order |
| Links.FilterKept | src/main.rs:295-302 | an `href` is kept exactly when it is present and not skipped |
| Crawl.AcceptedIff | src/main.rs:148-175 | an email comes out of a page exactly when some hit on the page is turned into it by the pipeline |
| Crawl.AcceptedValid | src/main.rs:150-175 | every email harvested from a page is valid, lower-case and not an asset name |
| Crawl.RecordEmails | src/main.rs:177-193 | the found set grows by exactly the page's accepted emails; the printed emails have no repeats and are exactly the newly inserted ones that pass the print filter |
| Crawl.EnqueueLinks | src/main.rs:197-206 | visited grows by exactly the page's links; the pushed URLs have no repeats, are exactly the links not visited before, and all sit at the given depth |
| Crawl.EnqueueLinksOrder | src/main.rs:199-205 | the links are pushed in the order of their first occurrence on the page |
| Crawl.Visit | src/main.rs:143-211 | after a successful fetch within the limit, the found set grows by exactly the accepted hits and the printed emails are exactly the new ones passing the print filter; below the limit the pushed URLs are exactly the page's unvisited links, in first-occurrence order, one level deeper; at the limit nothing is pushed |
| Crawl.Step | src/main.rs:124-213 | an iteration halts exactly on the deadline or an empty queue; otherwise it pops the front and appends the pushed entries, adds only new URLs to visited, pushes only one level deeper than the popped entry and never beyond the limit, and reports each newly found email at most once; a failed fetch changes neither set; an entry deeper than the limit is only popped, with nothing printed or pushed; a fetched page adds exactly the addresses the pipeline accepts from its hits, and below the depth limit the pushed URLs are exactly the page's links not yet visited, in the order of their first occurrence |
| Crawl.SeedInv | src/main.rs:96-100 | the seeded state satisfies the crawl invariant |
| Crawl.DepthGuardIdle | src/main.rs:139-141 | under the invariant the entry at the front of the queue is never deeper than the limit |
| Crawl.QueueAfterPush | src/main.rs:201-206 | popping the front and pushing unvisited, now-visited entries keeps the queue duplicate-free and inside visited |
| Crawl.StepPreservesInv | src/main.rs:124-213 | every iteration preserves the invariant: queued URLs are visited and pairwise distinct, depths are within the limit, found emails are valid lower-case non-asset addresses |
| Crawl.Run | src/main.rs:124-213 | over any number of iterations, visited grows by exactly the pushed URLs, and these have no repeats and were never visited before |
| Crawl.RunUnfold | src/main.rs:124-213 | unfolding helper for the run lemmas: a run whose first iteration steps is that iteration followed by the run from the next state |
| Crawl.RunDepths | src/main.rs:197-203 | every pushed entry is between 1 and the limit deep, and with limit 0 nothing is pushed |
| Crawl.RunReports | src/main.rs:177-193 | over a run the found set only grows, no email is printed twice, and the printed emails are exactly the new ones that pass the print filter |
| Crawl.RunPreservesInv | src/main.rs:124-213 | the invariant holds after any number of iterations |
| Crawl.DistinctAppend | src/main.rs:201-206 | two duplicate-free, disjoint sequences concatenate without duplicates |
| Crawl.DistinctCount | src/main.rs:224-227 | a duplicate-free sequence has as many elements as its set |
| Crawl.CrawlQueuesOnce | src/main.rs:96-100 | across a whole crawl no URL is queued twice, the seed included, and visited is exactly the seed plus the pushed URLs |
| Crawl.DepthZeroQueuesNothing | src/main.rs:197-203 | with depth limit 0 nothing is queued beyond the seed, and visited stays the seed alone |
| Crawl.CrawlReports | src/main.rs:177-193 | outside strict mode every found email is printed exactly once, so the final count equals the printed lines; in strict mode exactly the found emails ending with the lower-cased domain are printed |

## Left out

- Threads, `Arc<Mutex<..>>` and the early exit of a worker that sees an empty queue while others are still fetching: the model runs one worker sequentially, so this race is not modelled.
- HTTP fetching, the per-request timeout and the wall clock: `fetch` is a parameter, and the deadline check is one boolean per iteration.
- The regex scan in `extract_emails`: its leftmost-first matching belongs to a library, so the hits of a page are part of what `fetch` returns.
- HTML parsing and `url::Url::parse` / `join` in `extract_links`, including the `http`/`https` scheme test on absolute `href`s: `resolve` is a parameter standing for all of this. Only the prefix filter is modelled.
- `get_domain`: the target domain is a given string in `Config`.
- Argument parsing, the start and end messages and colouring: only the decision whether an email is printed is modelled.
- Unicode: every character is treated as ASCII. Non-ASCII characters are neither alphanumeric nor white space, and lower-casing leaves them alone. `char::is_alphanumeric`, `to_lowercase` and `trim` differ from this on non-ASCII input. So do the case-insensitive classes `(?i)[a-z]` of the address pattern (src/main.rs:274): under Unicode case folding they also match characters such as `ſ` (U+017F, which folds to `s`). The source therefore accepts `ſ@b.com`, which `Emails.IsValidEmail` rejects.
- Crawl.Run: a run ends after as many iterations as the clock sequence has entries. A crawl that would go on longer is observed only up to that point, not to completion.
- Strings.Trim: the contract does not state that exactly the leading and trailing white space is removed. Trimming is modelled by its definition through `DropWhile` and `DropWhileEnd`, whose contracts state it.

=== FILE: crawl.dfy ===
/** The crawl loop of one worker, as a pure transition over the state the
    workers share: the queue of pages still to visit, the set of URLs ever
    queued, and the set of emails found so far. Fetching a page and
    resolving a link are parameters; the wall clock enters as one boolean
    per iteration saying whether the deadline had already passed. */
module Crawl {
  import opened Wrappers
  import opened Strings
  import opened Emails
  import opened Links

  /** A queued page: its URL and its distance in links from the seed. */
  datatype Entry = Entry(url: string, depth: nat)

  /** What a successful fetch yields: the email-shaped hits in the page
      text, in order, and the raw `href` attributes of its links. */
  datatype Page = Page(candidates: seq<string>, hrefs: seq<string>)

  /** The command-line settings the loop consults: the depth limit, the
      strict flag, and the host of the seed URL. */
  datatype Config = Config(maxDepth: nat, strict: bool, domain: string)

  datatype State = State(frontier: seq<Entry>, visited: set<string>, found: set<string>)

  function Urls(entries: seq<Entry>): (urls: seq<string>)
    ensures |urls| == |entries|
    ensures forall i :: 0 <= i < |entries| ==> urls[i] == entries[i].url
  {
    seq(|entries|, i requires 0 <= i < |entries| => entries[i].url)
  }

  function Members(xs: seq<string>): set<string> {
    set x | x in xs
  }

  predicate Distinct(xs: seq<string>) {
    forall i, j :: 0 <= i < j < |xs| ==> xs[i] != xs[j]
  }

  // ---------------------------------------------------------------------
  // Seeding

  /** The start state: the normalised seed URL at depth 0, already marked
      visited, and no emails. */
  function Seed(input: string): State {
    var url := NormalizeSeedUrl(input);
    State([Entry(url, 0)], {url}, {})
  }

  // ---------------------------------------------------------------------
  // Recording emails

  /** Whether a newly found email is printed: always, unless strict mode
      asks for the target domain as a case-insensitive suffix. */
  predicate ShouldPrint(cfg: Config, email: string) {
    !cfg.strict || EndsWith(ToLower(email), ToLower(cfg.domain))
  }

  /** The emails a page's hits turn into under the per-candidate pipeline
      `accept`; the crawler passes `Process`. */
  function Accepted(accept: string -> Option<string>, cands: seq<string>): (emails: set<string>)
    decreases |cands|
  {
    if |cands| == 0 then {}
    else
      match accept(cands[0])
      case None => Accepted(accept, cands[1..])
      case Some(e) => {e} + Accepted(accept, cands[1..])
  }

  /** An email is accepted from a page exactly when some hit on it is
      turned into that email. */
  lemma {:induction false} AcceptedIff(accept: string -> Option<string>, cands: seq<string>, e: string)
    ensures e in Accepted(accept, cands) <==> exists i :: 0 <= i < |cands| && accept(cands[i]) == Some(e)
    decreases |cands|
  {
    if |cands| > 0 {
      AcceptedIff(accept, cands[1..], e);
      if exists i :: 1 <= i < |cands| && accept(cands[i]) == Some(e) {
        var i :| 1 <= i < |cands| && accept(cands[i]) == Some(e);
        assert cands[1..][i - 1] == cands[i];
      }
      if exists i :: 0 <= i < |cands| - 1 && accept(cands[1..][i]) == Some(e) {
        var i :| 0 <= i < |cands| - 1 && accept(cands[1..][i]) == Some(e);
        assert cands[i + 1] == cands[1..][i];
      }
    }
  }

  /** Every email the pipeline accepts from a page is a valid, lower-case,
      non-asset address. */
  lemma AcceptedValid(cands: seq<string>)
    ensures forall e :: e in Accepted(Process, cands) ==>
              IsValidEmail(e) && !IsAssetFilename(e) && NoUpper(e)
  {
    forall e | e in Accepted(Process, cands)
      ensures IsValidEmail(e) && !IsAssetFilename(e) && NoUpper(e)
    {
      AcceptedIff(Process, cands, e);
      var i :| 0 <= i < |cands| && Process(cands[i]) == Some(e);
    }
  }

  datatype Harvest = Harvest(found: set<string>, printed: seq<string>)

  /** The hits of one page, in order, each run through the pipeline and
      inserted into the found set; an email is printed when its insertion
      is new and the print filter lets it through. */
  function RecordEmails(cfg: Config, accept: string -> Option<string>,
                        found: set<string>, cands: seq<string>): (h: Harvest)
    ensures h.found == found + Accepted(accept, cands)
    ensures Distinct(h.printed)
    ensures forall e :: e in h.printed <==> e in h.found && e !in found && ShouldPrint(cfg, e)
    decreases |cands|
  {
    if |cands| == 0 then Harvest(found, [])
    else
      match accept(cands[0])
      case None => RecordEmails(cfg, accept, found, cands[1..])
      case Some(e) =>
        if e in found then RecordEmails(cfg, accept, found, cands[1..])
        else
          var h := RecordEmails(cfg, accept, found + {e}, cands[1..]);
          Harvest(h.found, (if ShouldPrint(cfg, e) then [e] else []) + h.printed)
  }

  // ---------------------------------------------------------------------
  // Queueing links

  datatype Enqueue = Enqueue(visited: set<string>, pushed: seq<Entry>)

  /** Push every link not yet visited, in order, at the given depth, and
      mark it visited at once, so that a link repeated on the page is
      pushed only once. */
  function EnqueueLinks(visited: set<string>, links: seq<string>, depth: nat): (q: Enqueue)
    ensures q.visited == visited + Members(links)
    ensures Distinct(Urls(q.pushed))
    ensures forall u :: u in Urls(q.pushed) <==> u in links && u !in visited
    ensures forall i :: 0 <= i < |q.pushed| ==> q.pushed[i].depth == depth
    decreases |links|
  {
    if |links| == 0 then Enqueue(visited, [])
    else
      assert forall u :: u in links <==> u == links[0] || u in links[1..];
      if links[0] in visited then EnqueueLinks(visited, links[1..], depth)
      else
        var q := EnqueueLinks(visited + {links[0]}, links[1..], depth);
        assert Urls([Entry(links[0], depth)] + q.pushed) == [links[0]] + Urls(q.pushed);
        Enqueue(q.visited, [Entry(links[0], depth)] + q.pushed)
  }

  /** The position of the first occurrence of `u` in `links`, or `|links|`
      when there is none. */
  function FirstIndex(links: seq<string>, u: string): (k: nat)
    ensures k <= |links|
    ensures k < |links| <==> u in links
    ensures k < |links| ==> links[k] == u
    ensures forall a :: 0 <= a < k ==> links[a] != u
  {
    if |links| == 0 then 0
    else if links[0] == u then 0
    else 1 + FirstIndex(links[1..], u)
  }

  /** `urls` lists its elements in the order of their first occurrence in
      `links`. */
  predicate FirstSeenOrder(links: seq<string>, urls: seq<string>) {
    forall i, j :: 0 <= i < j < |urls| ==> FirstIndex(links, urls[i]) < FirstIndex(links, urls[j])
  }

  lemma FirstIndexCons(x: string, rest: seq<string>, u: string)
    ensures FirstIndex([x] + rest, u) == if u == x then 0 else 1 + FirstIndex(rest, u)
  {
    assert ([x] + rest)[1..] == rest;
  }

  /** A link that is not listed can be put in front of the links. */
  lemma FirstSeenOrderSkip(x: string, rest: seq<string>, urls: seq<string>)
    requires FirstSeenOrder(rest, urls) && x !in urls
    ensures FirstSeenOrder([x] + rest, urls)
  {
    forall i | 0 <= i < |urls|
      ensures FirstIndex([x] + rest, urls[i]) == 1 + FirstIndex(rest, urls[i])
    {
      FirstIndexCons(x, rest, urls[i]);
    }
  }

  /** A new link put in front of the links goes in front of the list. */
  lemma FirstSeenOrderCons(x: string, rest: seq<string>, urls: seq<string>)
    requires FirstSeenOrder(rest, urls) && x !in urls
    ensures FirstSeenOrder([x] + rest, [x] + urls)
  {
    var links := [x] + rest;
    var p := [x] + urls;
    forall i | 0 <= i < |urls|
      ensures FirstIndex(links, p[i + 1]) == 1 + FirstIndex(rest, urls[i])
    {
      assert p[i + 1] == urls[i];
      FirstIndexCons(x, rest, urls[i]);
    }
    FirstIndexCons(x, rest, x);
    forall i, j | 0 <= i < j < |p|
      ensures FirstIndex(links, p[i]) < FirstIndex(links, p[j])
    {
      if i > 0 {
        assert FirstIndex(rest, urls[i - 1]) < FirstIndex(rest, urls[j - 1]);
      }
    }
  }

  /** One link of the page pushed, or skipped as already visited. */
  lemma EnqueueLinksCons(visited: set<string>, links: seq<string>, depth: nat)
    requires |links| > 0
    ensures var q := EnqueueLinks(visited, links, depth);
            var x, rest := links[0], links[1..];
            if x in visited then q.pushed == EnqueueLinks(visited, rest, depth).pushed
            else q.pushed == [Entry(x, depth)] + EnqueueLinks(visited + {x}, rest, depth).pushed
  {
  }

  lemma UrlsCons(e: Entry, entries: seq<Entry>)
    ensures Urls([e] + entries) == [e.url] + Urls(entries)
  {
  }

  /** The links are pushed in the order the page first mentions them. */
  lemma {:induction false} EnqueueLinksOrder(visited: set<string>, links: seq<string>, depth: nat)
    ensures FirstSeenOrder(links, Urls(EnqueueLinks(visited, links, depth).pushed))
    decreases |links|
  {
    if |links| > 0 {
      var x, rest := links[0], links[1..];
      assert links == [x] + rest;
      EnqueueLinksCons(visited, links, depth);
      if x in visited {
        var q' := EnqueueLinks(visited, rest, depth);
        EnqueueLinksOrder(visited, rest, depth);
        assert x !in Urls(q'.pushed);
        FirstSeenOrderSkip(x, rest, Urls(q'.pushed));
      } else {
        var q' := EnqueueLinks(visited + {x}, rest, depth);
        EnqueueLinksOrder(visited + {x}, rest, depth);
        UrlsCons(Entry(x, depth), q'.pushed);
        assert x !in Urls(q'.pushed);
        FirstSeenOrderCons(x, rest, Urls(q'.pushed));
      }
    }
  }

  // ---------------------------------------------------------------------
  // One iteration of the worker loop

  datatype Outcome =
    | Halted
    | Stepped(state: State, printed: seq<string>, pushed: seq<Entry>)

  /** The part of an iteration after a successful fetch of the front entry
      within the limit: record the page's emails and, below the limit,
      queue its links one level deeper in the order the page gives them. */
  function Visit(cfg: Config, resolve: (string, string) -> Option<string>,
                 st: State, page: Page): (o: Outcome)
    requires |st.frontier| > 0 && st.frontier[0].depth <= cfg.maxDepth
    ensures o.Stepped?
    ensures o.state.frontier == st.frontier[1..] + o.pushed
    ensures o.state.visited == st.visited + Members(Urls(o.pushed))
    ensures Distinct(Urls(o.pushed))
    ensures forall u :: u in Urls(o.pushed) ==> u !in st.visited
    ensures forall i :: 0 <= i < |o.pushed| ==>
              o.pushed[i].depth == st.frontier[0].depth + 1 <= cfg.maxDepth
    ensures st.frontier[0].depth == cfg.maxDepth ==> o.pushed == []
    ensures o.state.found == st.found + Accepted(Process, page.candidates)
    ensures forall e :: e in o.state.found && e !in st.found ==>
              IsValidEmail(e) && !IsAssetFilename(e) && NoUpper(e)
    ensures Distinct(o.printed)
    ensures forall e :: e in o.printed <==>
              e in o.state.found && e !in st.found && ShouldPrint(cfg, e)
    ensures st.frontier[0].depth < cfg.maxDepth ==>
              var links := ExtractLinks(page.hrefs, st.frontier[0].url, resolve);
              && Members(Urls(o.pushed)) == Members(links) - st.visited
              && FirstSeenOrder(links, Urls(o.pushed))
  {
    var entry := st.frontier[0];
    var rest := st.frontier[1..];
    AcceptedValid(page.candidates);
    var h := RecordEmails(cfg, Process, st.found, page.candidates);
    if entry.depth < cfg.maxDepth then
      var links := ExtractLinks(page.hrefs, entry.url, resolve);
      var q := EnqueueLinks(st.visited, links, entry.depth + 1);
      EnqueueLinksOrder(st.visited, links, entry.depth + 1);
      assert Members(Urls(q.pushed)) <= Members(links);
      assert forall u :: u in Members(links) && u !in st.visited ==> u in Members(Urls(q.pushed));
      Stepped(State(rest + q.pushed, q.visited, h.found), h.printed, q.pushed)
    else
      Stepped(State(rest, st.visited, h.found), h.printed, [])
  }

  /** One pass of the worker loop: stop when the deadline has passed or the
      queue is empty; otherwise pop the front entry, skip it when it is
      deeper than the limit, fetch it, record its emails, and queue its
      links one level deeper while the limit allows. */
  function Step(cfg: Config, fetch: string -> Option<Page>,
                resolve: (string, string) -> Option<string>,
                st: State, expired: bool): (o: Outcome)
    ensures o.Halted? <==> expired || |st.frontier| == 0
    ensures o.Stepped? ==> o.state.frontier == st.frontier[1..] + o.pushed
    ensures o.Stepped? ==> o.state.visited == st.visited + Members(Urls(o.pushed))
    ensures o.Stepped? ==> Distinct(Urls(o.pushed))
    ensures o.Stepped? ==> forall u :: u in Urls(o.pushed) ==> u !in st.visited
    ensures o.Stepped? ==> forall i :: 0 <= i < |o.pushed| ==>
              o.pushed[i].depth == st.frontier[0].depth + 1 <= cfg.maxDepth
    ensures cfg.maxDepth == 0 ==> o.Halted? || o.pushed == []
    ensures o.Stepped? ==> st.found <= o.state.found
    ensures o.Stepped? ==> forall e :: e in o.state.found && e !in st.found ==>
              IsValidEmail(e) && !IsAssetFilename(e) && NoUpper(e)
    ensures o.Stepped? ==> Distinct(o.printed)
    ensures o.Stepped? ==> forall e :: e in o.printed <==>
              e in o.state.found && e !in st.found && ShouldPrint(cfg, e)
    ensures o.Stepped? && fetch(st.frontier[0].url).None? ==>
              o.state.visited == st.visited && o.state.found == st.found
    ensures o.Stepped? && st.frontier[0].depth <= cfg.maxDepth && fetch(st.frontier[0].url).Some? ==>
              o.state.found == st.found + Accepted(Process, fetch(st.frontier[0].url).value.candidates)
    ensures o.Stepped? && st.frontier[0].depth < cfg.maxDepth && fetch(st.frontier[0].url).Some? ==>
              var links := ExtractLinks(fetch(st.frontier[0].url).value.hrefs, st.frontier[0].url, resolve);
              && Members(Urls(o.pushed)) == Members(links) - st.visited
              && FirstSeenOrder(links, Urls(o.pushed))
    ensures o.Stepped? && st.frontier[0].depth > cfg.maxDepth ==>
              o.state == st.(frontier := st.frontier[1..]) && o.printed == [] && o.pushed == []
  {
    if expired || |st.frontier| == 0 then Halted
    else
      var entry := st.frontier[0];
      var rest := st.frontier[1..];
      if entry.depth > cfg.maxDepth then
        Stepped(st.(frontier := rest), [], [])
      else match fetch(entry.url)
        case None => Stepped(st.(frontier := rest), [], [])
        case Some(page) => Visit(cfg, resolve, st, page)
  }

  // ---------------------------------------------------------------------
  // What every reachable state satisfies

  /** Every queued URL is marked visited, no URL is queued twice, no entry
      is deeper than the limit, and every found email is a valid, lower-case,
      non-asset address. */
  predicate Inv(cfg: Config, st: State) {
    && (forall i :: 0 <= i < |st.frontier| ==>
          st.frontier[i].url in st.visited && st.frontier[i].depth <= cfg.maxDepth)
    && Distinct(Urls(st.frontier))
    && (forall e :: e in st.found ==> IsValidEmail(e) && !IsAssetFilename(e) && NoUpper(e))
  }

  lemma SeedInv(cfg: Config, input: string)
    ensures Inv(cfg, Seed(input))
  {
  }

  /** Under the invariant the depth guard never drops an entry. */
  lemma DepthGuardIdle(cfg: Config, st: State)
    requires Inv(cfg, st) && |st.frontier| > 0
    ensures !(st.frontier[0].depth > cfg.maxDepth)
  {
  }

  lemma {:induction false} StepPreservesInv(cfg: Config, fetch: string -> Option<Page>,
                                            resolve: (string, string) -> Option<string>,
                                            st: State, expired: bool)
    requires Inv(cfg, st)
    ensures Step(cfg, fetch, resolve, st, expired).Stepped? ==>
              Inv(cfg, Step(cfg, fetch, resolve, st, expired).state)
  {
    var o := Step(cfg, fetch, resolve, st, expired);
    if o.Stepped? {
      QueueAfterPush(cfg, st.frontier[1..], o.pushed, st.visited, o.state.visited);
    }
  }

  /** The queue part of the invariant survives popping the front and
      pushing entries that were unvisited and are now visited. */
  lemma QueueAfterPush(cfg: Config, rest: seq<Entry>, pushed: seq<Entry>,
                       visited: set<string>, visited': set<string>)
    requires forall i :: 0 <= i < |rest| ==> rest[i].url in visited && rest[i].depth <= cfg.maxDepth
    requires Distinct(Urls(rest))
    requires Distinct(Urls(pushed))
    requires forall u :: u in Urls(pushed) ==> u !in visited
    requires forall i :: 0 <= i < |pushed| ==> pushed[i].depth <= cfg.maxDepth
    requires visited' == visited + Members(Urls(pushed))
    ensures forall i :: 0 <= i < |rest + pushed| ==>
              (rest + pushed)[i].url in visited' && (rest + pushed)[i].depth <= cfg.maxDepth
    ensures Distinct(Urls(rest + pushed))
  {
    assert Urls(rest + pushed) == Urls(rest) + Urls(pushed);
    DistinctAppend(Urls(rest), Urls(pushed));
    forall i | 0 <= i < |rest + pushed|
      ensures (rest + pushed)[i].url in visited'
    {
      if i >= |rest| {
        assert Urls(pushed)[i - |rest|] in Urls(pushed);
      }
    }
  }

  // ---------------------------------------------------------------------
  // Running the loop

  datatype Trace = Trace(state: State, printed: seq<string>, pushed: seq<Entry>)

  /** Two stretches of pushing, each of fresh and distinct URLs recorded in
      visited, make one such stretch. */
  lemma PushedAppend(v0: set<string>, v1: set<string>, v2: set<string>,
                     a: seq<Entry>, b: seq<Entry>)
    requires v1 == v0 + Members(Urls(a)) && Distinct(Urls(a))
    requires forall u :: u in Urls(a) ==> u !in v0
    requires v2 == v1 + Members(Urls(b)) && Distinct(Urls(b))
    requires forall u :: u in Urls(b) ==> u !in v1
    ensures v2 == v0 + Members(Urls(a + b))
    ensures Distinct(Urls(a + b))
    ensures forall u :: u in Urls(a + b) ==> u !in v0
  {
    assert Urls(a + b) == Urls(a) + Urls(b);
    DistinctAppend(Urls(a), Urls(b));
  }

  /** Iterations of the worker loop, one per element of `clock`, each told
      whether the deadline had passed when it began; the run ends at the
      first iteration that halts, or when `clock` runs out. */
  function Run(cfg: Config, fetch: string -> Option<Page>,
               resolve: (string, string) -> Option<string>,
               st: State, clock: seq<bool>): (t: Trace)
    ensures t.state.visited == st.visited + Members(Urls(t.pushed))
    ensures Distinct(Urls(t.pushed))
    ensures forall u :: u in Urls(t.pushed) ==> u !in st.visited
    decreases |clock|
  {
    if |clock| == 0 then Trace(st, [], [])
    else match Step(cfg, fetch, resolve, st, clock[0])
      case Halted => Trace(st, [], [])
      case Stepped(next, printed, pushed) =>
        var t := Run(cfg, fetch, resolve, next, clock[1..]);
        PushedAppend(st.visited, next.visited, t.state.visited, pushed, t.pushed);
        Trace(t.state, printed + t.printed, pushed + t.pushed)
  }

  /** Every entry lies between one and `maxDepth` links from the seed. */
  predicate DepthsWithin(entries: seq<Entry>, maxDepth: nat) {
    forall i :: 0 <= i < |entries| ==> 1 <= entries[i].depth <= maxDepth
  }

  lemma DepthsWithinAppend(a: seq<Entry>, b: seq<Entry>, maxDepth: nat)
    requires DepthsWithin(a, maxDepth) && DepthsWithin(b, maxDepth)
    ensures DepthsWithin(a + b, maxDepth)
  {
    forall i | 0 <= i < |a + b|
      ensures 1 <= (a + b)[i].depth <= maxDepth
    {
      if i < |a| {
        assert (a + b)[i] == a[i];
      } else {
        assert (a + b)[i] == b[i - |a|];
      }
    }
  }

  /** A run that takes a step is that step followed by the rest of the run. */
  lemma RunUnfold(cfg: Config, fetch: string -> Option<Page>,
                  resolve: (string, string) -> Option<string>, st: State, clock: seq<bool>)
    requires |clock| > 0 && Step(cfg, fetch, resolve, st, clock[0]).Stepped?
    ensures var o := Step(cfg, fetch, resolve, st, clock[0]);
            var t := Run(cfg, fetch, resolve, o.state, clock[1..]);
            Run(cfg, fetch, resolve, st, clock) ==
              Trace(t.state, o.printed + t.printed, o.pushed + t.pushed)
  {
  }

  /** Every entry a run pushes is one to `maxDepth` links from the seed;
      with limit 0 nothing is pushed at all. */
  lemma {:induction false} RunDepths(cfg: Config, fetch: string -> Option<Page>,
                                     resolve: (string, string) -> Option<string>,
                                     st: State, clock: seq<bool>)
    ensures DepthsWithin(Run(cfg, fetch, resolve, st, clock).pushed, cfg.maxDepth)
    ensures cfg.maxDepth == 0 ==> Run(cfg, fetch, resolve, st, clock).pushed == []
    decreases |clock|
  {
    if |clock| > 0 {
      var o := Step(cfg, fetch, resolve, st, clock[0]);
      if o.Stepped? {
        RunDepths(cfg, fetch, resolve, o.state, clock[1..]);
        RunUnfold(cfg, fetch, resolve, st, clock);
        var t := Run(cfg, fetch, resolve, o.state, clock[1..]);
        assert DepthsWithin(o.pushed, cfg.maxDepth);
        DepthsWithinAppend(o.pushed, t.pushed, cfg.maxDepth);
      }
    }
  }

  /** Over a run, the found set only grows, each email is printed at most
      once, and the printed emails are exactly the newly found ones the
      print filter lets through. */
  lemma {:induction false} RunReports(cfg: Config, fetch: string -> Option<Page>,
                                      resolve: (string, string) -> Option<string>,
                                      st: State, clock: seq<bool>)
    ensures var t := Run(cfg, fetch, resolve, st, clock);
            && st.found <= t.state.found
            && Distinct(t.printed)
            && (forall e :: e in t.printed <==>
                  e in t.state.found && e !in st.found && ShouldPrint(cfg, e))
    decreases |clock|
  {
    if |clock| > 0 {
      match Step(cfg, fetch, resolve, st, clock[0])
      case Halted =>
      case Stepped(next, printed, pushed) =>
        RunReports(cfg, fetch, resolve, next, clock[1..]);
        var t := Run(cfg, fetch, resolve, next, clock[1..]);
        assert Run(cfg, fetch, resolve, st, clock).printed == printed + t.printed;
        DistinctAppend(printed, t.printed);
    }
  }

  /** Two duplicate-free sequences with no common element concatenate to a
      duplicate-free sequence. */
  lemma DistinctAppend(a: seq<string>, b: seq<string>)
    requires Distinct(a) && Distinct(b)
    requires forall x :: x in b ==> x !in a
    ensures Distinct(a + b)
  {
    forall i, j | 0 <= i < j < |a + b|
      ensures (a + b)[i] != (a + b)[j]
    {
      if i < |a| && j >= |a| {
        assert (a + b)[i] in a && (a + b)[j] == b[j - |a|];
      }
    }
  }

  lemma {:induction false} RunPreservesInv(cfg: Config, fetch: string -> Option<Page>,
                                           resolve: (string, string) -> Option<string>,
                                           st: State, clock: seq<bool>)
    requires Inv(cfg, st)
    ensures Inv(cfg, Run(cfg, fetch, resolve, st, clock).state)
    decreases |clock|
  {
    if |clock| > 0 {
      StepPreservesInv(cfg, fetch, resolve, st, clock[0]);
      match Step(cfg, fetch, resolve, st, clock[0])
      case Halted =>
      case Stepped(next, _, _) =>
        RunPreservesInv(cfg, fetch, resolve, next, clock[1..]);
    }
  }

  /** A duplicate-free sequence has as many elements as its set. */
  lemma {:induction false} DistinctCount(xs: seq<string>)
    requires Distinct(xs)
    ensures |Members(xs)| == |xs|
    decreases |xs|
  {
    if |xs| > 0 {
      DistinctCount(xs[1..]);
      assert Members(xs) == {xs[0]} + Members(xs[1..]);
      assert xs[0] !in Members(xs[1..]);
    }
  }

  /** A whole crawl from the command-line URL. */
  function Crawl(cfg: Config, fetch: string -> Option<Page>,
                 resolve: (string, string) -> Option<string>,
                 input: string, clock: seq<bool>): Trace
  {
    Run(cfg, fetch, resolve, Seed(input), clock)
  }

  /** No URL is ever queued twice, the seed included: the seed followed by
      every URL pushed during the crawl has no duplicates, and these are
      exactly the URLs marked visited. */
  lemma CrawlQueuesOnce(cfg: Config, fetch: string -> Option<Page>,
                        resolve: (string, string) -> Option<string>,
                        input: string, clock: seq<bool>)
    ensures var t := Crawl(cfg, fetch, resolve, input, clock);
            && Distinct([NormalizeSeedUrl(input)] + Urls(t.pushed))
            && t.state.visited == Members([NormalizeSeedUrl(input)] + Urls(t.pushed))
  {
    var t := Crawl(cfg, fetch, resolve, input, clock);
    var seed := NormalizeSeedUrl(input);
    DistinctAppend([seed], Urls(t.pushed));
    assert Members([seed] + Urls(t.pushed)) == {seed} + Members(Urls(t.pushed));
  }

  /** With depth limit 0 only the seed page is read: nothing is queued and
      the visited set stays the seed alone. */
  lemma DepthZeroQueuesNothing(cfg: Config, fetch: string -> Option<Page>,
                               resolve: (string, string) -> Option<string>,
                               input: string, clock: seq<bool>)
    requires cfg.maxDepth == 0
    ensures Crawl(cfg, fetch, resolve, input, clock).pushed == []
    ensures Crawl(cfg, fetch, resolve, input, clock).state.visited == {NormalizeSeedUrl(input)}
  {
    var t := Crawl(cfg, fetch, resolve, input, clock);
    RunDepths(cfg, fetch, resolve, Seed(input), clock);
    assert Members(Urls(t.pushed)) == {};
  }

  /** Each found email is printed once at most. Outside strict mode every
      found email is printed, so the final count equals the number of
      printed lines; in strict mode exactly the found emails ending with
      the lower-cased target domain are printed. */
  lemma CrawlReports(cfg: Config, fetch: string -> Option<Page>,
                     resolve: (string, string) -> Option<string>,
                     input: string, clock: seq<bool>)
    ensures var t := Crawl(cfg, fetch, resolve, input, clock);
            && Distinct(t.printed)
            && (!cfg.strict ==> Members(t.printed) == t.state.found &&
                                |t.printed| == |t.state.found|)
            && (cfg.strict ==> forall e :: e in t.printed <==>
                                 e in t.state.found && EndsWith(e, ToLower(cfg.domain)))
  {
    var t := Crawl(cfg, fetch, resolve, input, clock);
    SeedInv(cfg, input);
    RunReports(cfg, fetch, resolve, Seed(input), clock);
    RunPreservesInv(cfg, fetch, resolve, Seed(input), clock);
    if !cfg.strict {
      DistinctCount(t.printed);
    }
    forall e | e in t.state.found
      ensures ToLower(e) == e
    {
      ToLowerKeepsLowered(e);
    }
  }
}

=== FILE: email_examples.dfy ===
/** Worked examples of the per-candidate pipeline on a few literal
    addresses, and the facts about the asset filter they need. Every literal fact sits in
    a lemma of its own so that each proof stays small. */
module EmailExamples {
  import opened Wrappers
  import opened Strings
  import opened Rot13
  import opened Emails

  /** Every asset extension begins with a dot, so text before the first dot
      never matters to the asset filter. */
  lemma AssetFilenameFromFirstDot(a: string, rest: string)
    requires '.' !in a
    ensures IsAssetFilename(a + rest) <==> IsAssetFilename(rest)
  {
    ContainsSkipsPrefix(a, rest, ".png");
    ContainsSkipsPrefix(a, rest, ".jpg");
    ContainsSkipsPrefix(a, rest, ".jpeg");
    ContainsSkipsPrefix(a, rest, ".gif");
    ContainsSkipsPrefix(a, rest, ".svg");
    ContainsSkipsPrefix(a, rest, ".css");
    ContainsSkipsPrefix(a, rest, ".js");
    ContainsSkipsPrefix(a, rest, ".ico");
    ContainsSkipsPrefix(a, rest, ".pdf");
    ContainsSkipsPrefix(a, rest, ".zip");
    ContainsSkipsPrefix(a, rest, ".rar");
    ContainsSkipsPrefix(a, rest, ".exe");
  }

  /** A string without any of the letters p, g, j, r, x, i and s contains
      none of the extensions: each extension has one of them. */
  lemma NotAssetWithoutMarkers(s: string)
    requires 'p' !in s && 'g' !in s && 'j' !in s && 'r' !in s
    requires 'x' !in s && 'i' !in s && 's' !in s
    ensures !IsAssetFilename(s)
  {
    MissingCharExcludes(s, ".png", 'p');
    MissingCharExcludes(s, ".jpg", 'p');
    MissingCharExcludes(s, ".jpeg", 'p');
    MissingCharExcludes(s, ".gif", 'g');
    MissingCharExcludes(s, ".svg", 'g');
    MissingCharExcludes(s, ".css", 's');
    MissingCharExcludes(s, ".js", 'j');
    MissingCharExcludes(s, ".ico", 'i');
    MissingCharExcludes(s, ".pdf", 'p');
    MissingCharExcludes(s, ".zip", 'p');
    MissingCharExcludes(s, ".rar", 'r');
    MissingCharExcludes(s, ".exe", 'x');
  }

  lemma ComNotAsset()
    ensures !IsAssetFilename(".com")
  {
    NotAssetWithoutMarkers(".com");
  }

  lemma SeNotAsset()
    ensures !IsAssetFilename(".se")
  {
    MissingCharExcludes(".se", ".png", 'p');
    MissingCharExcludes(".se", ".jpg", 'p');
    MissingCharExcludes(".se", ".jpeg", 'p');
    MissingCharExcludes(".se", ".gif", 'g');
    MissingCharExcludes(".se", ".svg", 'g');
    MissingCharExcludes(".se", ".css", 'c');
    MissingCharExcludes(".se", ".js", 'j');
    MissingCharExcludes(".se", ".ico", 'i');
    MissingCharExcludes(".se", ".pdf", 'p');
    MissingCharExcludes(".se", ".zip", 'p');
    MissingCharExcludes(".se", ".rar", 'r');
    MissingCharExcludes(".se", ".exe", 'x');
  }

  // family@example.com, written in ROT13

  lemma FamilyShape()
    ensures WellFormed("snzvyl", ["rknzcyr", "pbz"])
  {
  }

  lemma FamilyAssembled()
    ensures Assemble("snzvyl", ["rknzcyr", "pbz"]) == "snzvyl@rknzcyr.pbz"
  {
  }

  lemma FamilyLocalDecoded()
    ensures Decode("snzvyl") == "family"
  {
    var d := Decode("snzvyl");
    assert d[0] == 'f' && d[1] == 'a' && d[2] == 'm';
    assert d[3] == 'i' && d[4] == 'l' && d[5] == 'y';
  }

  lemma FamilyHostDecoded()
    ensures Decode("rknzcyr") == "example"
  {
    var d := Decode("rknzcyr");
    assert d[0] == 'e' && d[1] == 'x' && d[2] == 'a' && d[3] == 'm';
    assert d[4] == 'p' && d[5] == 'l' && d[6] == 'e';
  }

  lemma FamilyTldDecoded()
    ensures Decode("pbz") == "com"
    ensures "com" in CommonTlds
  {
    var d := Decode("pbz");
    assert d[0] == 'c' && d[1] == 'o' && d[2] == 'm';
  }

  lemma FamilyDecoded()
    ensures Decode("snzvyl@rknzcyr.pbz") == "family@example.com"
  {
    FamilyShape();
    FamilyAssembled();
    DecodeWellFormed("snzvyl", ["rknzcyr", "pbz"]);
    FamilyLocalDecoded();
    FamilyHostDecoded();
    FamilyTldDecoded();
    assert DecodeAll(["rknzcyr", "pbz"]) == ["example", "com"];
    assert Assemble("family", ["example", "com"]) == "family@example.com";
  }

  lemma FamilyNotAsset()
    ensures !IsAssetFilename("family@example.com")
  {
    assert "family@example.com" == "family@example" + ".com";
    ComNotAsset();
    AssetFilenameFromFirstDot("family@example", ".com");
  }

  lemma FamilyClean()
    ensures NoUpper("snzvyl@rknzcyr.pbz")
  {
  }

  /** The ROT13 form of `family@example.com` found in a page is recorded
      decoded, not as written. */
  lemma ObfuscatedAddressIsDecoded()
    ensures Process("snzvyl@rknzcyr.pbz") == Some("family@example.com")
  {
    FamilyShape();
    FamilyAssembled();
    FamilyClean();
    FamilyTldDecoded();
    FamilyDecoded();
    FamilyNotAsset();
    ProcessDecodesFlagged("snzvyl", ["rknzcyr", "pbz"]);
  }

  // a@b.fr: a listed TLD whose ROT13 image is listed too

  lemma FranceShape()
    ensures WellFormed("a", ["b", "fr"])
    ensures Assemble("a", ["b", "fr"]) == "a@b.fr"
  {
  }

  lemma FranceClean()
    ensures NoUpper("a@b.fr")
  {
  }

  lemma FranceTldDecoded()
    ensures Decode("fr") == "se"
    ensures "se" in CommonTlds
  {
    var d := Decode("fr");
    assert d[0] == 's' && d[1] == 'e';
  }

  lemma FranceLabelsDecoded()
    ensures Decode("a") == "n"
    ensures Decode("b") == "o"
  {
    assert Decode("a")[0] == 'n';
    assert Decode("b")[0] == 'o';
  }

  lemma FranceDecoded()
    ensures Decode("a@b.fr") == "n@o.se"
  {
    FranceShape();
    DecodeWellFormed("a", ["b", "fr"]);
    FranceTldDecoded();
    FranceLabelsDecoded();
    assert DecodeAll(["b", "fr"]) == ["o", "se"];
    assert Assemble("n", ["o", "se"]) == "n@o.se";
  }

  lemma FranceNotAsset()
    ensures !IsAssetFilename("n@o.se")
  {
    assert "n@o.se" == "n@o" + ".se";
    SeNotAsset();
    AssetFilenameFromFirstDot("n@o", ".se");
  }

  /** `fr` and `se` are each other's ROT13 image and both are listed, so a
      plain `.fr` address is taken for an obfuscated one and recorded as
      its `.se` decoding. */
  lemma FrenchAddressIsMisdecoded()
    ensures Process("a@b.fr") == Some("n@o.se")
  {
    FranceShape();
    FranceClean();
    FranceTldDecoded();
    FranceDecoded();
    FranceNotAsset();
    ProcessDecodesFlagged("a", ["b", "fr"]);
  }

  // foo@bar.png: the shape of an address, the name of an image

  lemma PngShape()
    ensures WellFormed("foo", ["bar", "png"])
    ensures Assemble("foo", ["bar", "png"]) == "foo@bar.png"
  {
  }

  lemma PngClean()
    ensures NoUpper("foo@bar.png")
  {
  }

  lemma PngUnlisted()
    ensures "png" !in CommonTlds
  {
  }

  lemma PngDecodedUnlisted()
    ensures Decode("png") == "cat"
    ensures "cat" !in CommonTlds
  {
    var d := Decode("png");
    assert d[0] == 'c' && d[1] == 'a' && d[2] == 't';
  }

  lemma PngIsAsset()
    ensures IsAssetFilename("foo@bar.png")
  {
    assert OccursAt("foo@bar.png", ".png", 7);
    ContainsIff("foo@bar.png", ".png");
  }

  /** `foo@bar.png` has the shape of an address but is dropped: its last
      label is not on the allow-list, and it also looks like an asset. */
  lemma ImageNameIsDropped()
    ensures Process("foo@bar.png") == None
    ensures IsAssetFilename("foo@bar.png")
  {
    PngShape();
    PngClean();
    PngUnlisted();
    PngDecodedUnlisted();
    PngIsAsset();
    ProcessKeepsUnflagged("foo", ["bar", "png"]);
  }

  // someone@example.xx: well formed, TLD off the list

  lemma UnlistedShape()
    ensures WellFormed("someone", ["example", "xx"])
    ensures Assemble("someone", ["example", "xx"]) == "someone@example.xx"
  {
  }

  lemma XxUnlisted()
    ensures ToLower("xx") == "xx"
    ensures "xx" !in CommonTlds
  {
    ToLowerKeepsLowered("xx");
  }

  /** An address whose last label is off the list is never valid. */
  lemma UnlistedTldIsInvalid()
    ensures !IsValidEmail("someone@example.xx")
  {
    UnlistedShape();
    XxUnlisted();
    ValidEmailAssembled("someone", ["example", "xx"]);
  }
}

=== FILE: emails.dfy ===
/** The per-candidate half of the harvester (src/main.rs): the TLD
    allow-list, the anchored address check, the asset-filename filter, the
    ROT13 heuristic and the normalise / decode / validate / filter pipeline
    that turns one pattern hit into an address or nothing. */
module Emails {
  import opened Wrappers
  import opened Strings
  import opened Rot13

  /** `COMMON_TLDS`, in source order; `mil`, `gov` and `edu` appear twice,
      which is harmless because only membership is ever asked. */
  const CommonTlds: seq<string> := [
    "com", "org", "net", "edu", "gov", "mil", "int", "co", "io", "me", "biz",
    "info", "us", "uk", "ca", "de", "jp", "fr", "au", "ru", "ch", "it", "nl",
    "se", "no", "es", "mil", "gov", "edu", "tv", "ly"
  ]

  /** The extensions whose presence marks a hit as an asset file name. */
  const AssetExtensions: seq<string> := [
    ".png", ".jpg", ".jpeg", ".gif", ".svg", ".css", ".js", ".ico", ".pdf", ".zip", ".rar",
    ".exe"
  ]

  /** `[a-z0-9._%+-]` under the case-insensitive flag. */
  predicate IsLocalChar(c: char) {
    IsAlphanumeric(c) || c == '.' || c == '_' || c == '%' || c == '+' || c == '-'
  }

  /** `[a-z0-9-]` under the case-insensitive flag. */
  predicate IsHostChar(c: char) {
    IsAlphanumeric(c) || c == '-'
  }

  predicate IsLocalPart(s: string) {
    |s| > 0 && All(s, IsLocalChar)
  }

  predicate IsHostLabel(s: string) {
    |s| > 0 && All(s, IsHostChar)
  }

  /** `[a-z]{2,}` under the case-insensitive flag. */
  predicate IsTldLabel(s: string) {
    |s| >= 2 && All(s, IsLetter)
  }

  /** The pieces of a string matching `local@label(.label)*.tld`: a local
      part, then at least two dot-separated labels, the last one letters. */
  predicate WellFormed(local: string, labels: seq<string>) {
    && IsLocalPart(local)
    && |labels| >= 2
    && (forall i :: 0 <= i < |labels| - 1 ==> IsHostLabel(labels[i]))
    && IsTldLabel(Last(labels))
  }

  /** The address spelled by a local part and its domain labels. */
  function Assemble(local: string, labels: seq<string>): string {
    local + "@" + Join(labels, '.')
  }

  /** `is_valid_email`, the anchored pattern recognised by hand: exactly one
      `@`, a well-formed local part and domain, and a final label that,
      lower-cased, is on the allow-list. */
  predicate IsValidEmail(e: string) {
    var halves := Split(e, '@');
    && |halves| == 2
    && WellFormed(halves[0], Split(halves[1], '.'))
    && ToLower(Last(Split(halves[1], '.'))) in CommonTlds
  }

  /** `is_asset_filename`: one of the extensions occurs anywhere in `e`,
      tried in the order of the list. */
  predicate IsAssetFilename(e: string) {
    || Contains(e, ".png") || Contains(e, ".jpg") || Contains(e, ".jpeg")
    || Contains(e, ".gif") || Contains(e, ".svg") || Contains(e, ".css")
    || Contains(e, ".js") || Contains(e, ".ico") || Contains(e, ".pdf")
    || Contains(e, ".zip") || Contains(e, ".rar") || Contains(e, ".exe")
  }

  /** `split(sep).nth(1).unwrap_or("")`: the text between the first and the
      second `sep`, or empty when `sep` does not occur. */
  function SecondField(s: string, sep: char): (r: string)
    ensures sep !in r
    ensures sep !in s ==> r == ""
    ensures sep in s ==> exists a, b :: sep !in a && s == a + [sep] + r + b && (|b| == 0 || b[0] == sep)
  {
    var parts := Split(s, sep);
    SplitSingle(s, sep);
    if |parts| >= 2 then
      SplitFirstTwo(s, sep);
      var b := if |parts| > 2 then [sep] + Join(parts[2..], sep) else "";
      assert sep !in parts[0] && s == parts[0] + [sep] + parts[1] + b && (|b| == 0 || b[0] == sep);
      parts[1]
    else ""
  }

  /** `is_likely_rot13_encoded`: after decoding, the last dot-label of the
      second `@`-field is on the allow-list (compared exactly). */
  predicate IsLikelyRot13Encoded(e: string) {
    Last(Split(SecondField(Decode(e), '@'), '.')) in CommonTlds
  }

  predicate IsNotAlphanumeric(c: char) { !IsAlphanumeric(c) }

  /** Trim white space, strip the leading run of non-alphanumerics, then
      lower-case. */
  function Normalize(raw: string): (r: string)
    ensures NoUpper(r)
    ensures |r| <= |raw|
    ensures |r| > 0 ==> IsAlphanumeric(r[0])
  {
    ToLower(DropWhile(Trim(raw), IsNotAlphanumeric))
  }

  /** The per-candidate pipeline: normalise, decode when the heuristic
      fires, validate the chosen form (with no fallback to the other one),
      and drop asset file names. */
  function Process(raw: string): (r: Option<string>)
    ensures r.Some? ==> IsValidEmail(r.value) && !IsAssetFilename(r.value)
    ensures r.Some? ==> NoUpper(r.value)
    ensures IsLikelyRot13Encoded(Normalize(raw)) && r.Some? ==>
              r.value == Decode(Normalize(raw)) && r.value != Normalize(raw)
    ensures !IsLikelyRot13Encoded(Normalize(raw)) && r.Some? ==>
              r.value == Normalize(raw)
  {
    var email := Normalize(raw);
    var chosen :=
      if IsLikelyRot13Encoded(email) then
        var decoded := Decode(email);
        if IsValidEmail(decoded) then Some(decoded) else None
      else if IsValidEmail(email) then Some(email) else None;
    match chosen
    case None => None
    case Some(e) =>
      if IsAssetFilename(e) then None
      else
        ValidEmailChangedByDecode(email);
        Some(e)
  }

  // ---------------------------------------------------------------------
  // Validation

  /** A valid address is the assembly of its well-formed pieces. */
  lemma ValidEmailDecomposes(e: string)
    requires IsValidEmail(e)
    ensures var halves := Split(e, '@');
            && e == Assemble(halves[0], Split(halves[1], '.'))
            && WellFormed(halves[0], Split(halves[1], '.'))
  {
    var halves := Split(e, '@');
    JoinSplit(e, '@');
    JoinSplit(halves[1], '.');
    assert Join(halves, '@') == halves[0] + "@" + halves[1];
  }

  /** Assembling well-formed pieces gives a valid address exactly when the
      lower-cased last label is on the allow-list. */
  lemma ValidEmailAssembled(local: string, labels: seq<string>)
    requires WellFormed(local, labels)
    ensures IsValidEmail(Assemble(local, labels)) <==> ToLower(Last(labels)) in CommonTlds
  {
    var domain := Join(labels, '.');
    forall i | 0 <= i < |labels|
      ensures '.' !in labels[i]
    {
      if i < |labels| - 1 {
        assert All(labels[i], IsHostChar);
      } else {
        assert All(labels[i], IsLetter);
      }
    }
    SplitJoin(labels, '.');
    forall i | 0 <= i < |labels|
      ensures All(labels[i], IsHostChar)
    {
      if i == |labels| - 1 {
        assert All(labels[i], IsLetter);
      }
    }
    JoinAll(labels, '.', IsLocalChar);
    assert '@' !in local by {
      assert All(local, IsLocalChar);
    }
    assert '@' !in domain by {
      assert All(domain, IsLocalChar);
    }
    SplitJoin([local, domain], '@');
    assert Join([local, domain], '@') == Assemble(local, labels);
  }

  /** `is_valid_email` holds exactly of the strings of the form
      `local@label(.label)*.tld` whose last label is on the allow-list. */
  lemma ValidEmailCharacterization(e: string)
    ensures IsValidEmail(e) <==>
      exists local, labels :: e == Assemble(local, labels) && WellFormed(local, labels)
                              && ToLower(Last(labels)) in CommonTlds
  {
    if IsValidEmail(e) {
      ValidEmailDecomposes(e);
    }
    forall local, labels | e == Assemble(local, labels) && WellFormed(local, labels)
                           && ToLower(Last(labels)) in CommonTlds
      ensures IsValidEmail(e)
    {
      ValidEmailAssembled(local, labels);
    }
  }

  /** An address assembled from pieces ends with its last label. */
  lemma AssembleEndsWithTld(local: string, labels: seq<string>)
    requires |labels| >= 1
    ensures EndsWith(Assemble(local, labels), Last(labels))
  {
    JoinEndsWithLast(labels, '.');
  }

  /** A valid address ends with a letter (the last letter of its TLD). */
  lemma ValidEmailEndsWithLetter(e: string)
    requires IsValidEmail(e)
    ensures |e| > 0 && IsLetter(e[|e| - 1])
  {
    ValidEmailDecomposes(e);
    var halves := Split(e, '@');
    var labels := Split(halves[1], '.');
    AssembleEndsWithTld(halves[0], labels);
    var t := Last(labels);
    assert e[|e| - 1] == t[|t| - 1];
  }

  /** Decoding changes every valid address and every string whose decoding
      is valid. */
  lemma ValidEmailChangedByDecode(s: string)
    requires IsValidEmail(s) || IsValidEmail(Decode(s))
    ensures Decode(s) != s
  {
    if IsValidEmail(s) {
      ValidEmailEndsWithLetter(s);
    } else {
      ValidEmailEndsWithLetter(Decode(s));
    }
    DecodeMovesLetters(s, |s| - 1);
  }

  // ---------------------------------------------------------------------
  // Asset file names

  /** `is_asset_filename` holds exactly when some member of the extension
      list occurs in the string. */
  lemma AssetFilenameListed(e: string)
    ensures IsAssetFilename(e) <==>
      exists k :: 0 <= k < |AssetExtensions| && Contains(e, AssetExtensions[k])
  {
    if IsAssetFilename(e) {
      var k := if Contains(e, ".png") then 0 else if Contains(e, ".jpg") then 1
        else if Contains(e, ".jpeg") then 2 else if Contains(e, ".gif") then 3
        else if Contains(e, ".svg") then 4 else if Contains(e, ".css") then 5
        else if Contains(e, ".js") then 6 else if Contains(e, ".ico") then 7
        else if Contains(e, ".pdf") then 8 else if Contains(e, ".zip") then 9
        else if Contains(e, ".rar") then 10 else 11;
      assert Contains(e, AssetExtensions[k]);
    }
    forall k | 0 <= k < |AssetExtensions| && Contains(e, AssetExtensions[k])
      ensures IsAssetFilename(e)
    {
    }
  }

  /** The same, down to the position: some extension occurs at some index. */
  lemma AssetFilenameIff(e: string)
    ensures IsAssetFilename(e) <==>
      exists k, i :: 0 <= k < |AssetExtensions| && OccursAt(e, AssetExtensions[k], i)
  {
    AssetFilenameListed(e);
    forall k | 0 <= k < |AssetExtensions| {
      ContainsIff(e, AssetExtensions[k]);
    }
  }

  // ---------------------------------------------------------------------
  // The ROT13 heuristic

  /** Because decoding keeps every `@` and `.` in place, the heuristic only
      looks at the decoding of the last label of the second `@`-field. */
  lemma HeuristicDecodesLastLabel(e: string)
    ensures IsLikelyRot13Encoded(e) <==>
      Decode(Last(Split(SecondField(e, '@'), '.'))) in CommonTlds
  {
    DecodeSplit(e, '@');
    assert SecondField(Decode(e), '@') == Decode(SecondField(e, '@'));
    DecodeSplit(SecondField(e, '@'), '.');
  }

  /** For a well-formed address the heuristic fires exactly when the
      decoded last label is on the allow-list. */
  lemma HeuristicOnWellFormed(local: string, labels: seq<string>)
    requires WellFormed(local, labels)
    ensures IsLikelyRot13Encoded(Assemble(local, labels)) <==> Decode(Last(labels)) in CommonTlds
  {
    var e := Assemble(local, labels);
    ValidEmailAssembled(local, labels);
    WellFormedSplits(local, labels);
    HeuristicDecodesLastLabel(e);
  }

  /** The splits of an assembled address give back its pieces. */
  lemma WellFormedSplits(local: string, labels: seq<string>)
    requires WellFormed(local, labels)
    ensures Split(Assemble(local, labels), '@') == [local, Join(labels, '.')]
    ensures Split(Join(labels, '.'), '.') == labels
  {
    var domain := Join(labels, '.');
    forall i | 0 <= i < |labels|
      ensures All(labels[i], IsHostChar)
    {
      if i == |labels| - 1 {
        assert All(labels[i], IsLetter);
      }
    }
    assert forall i :: 0 <= i < |labels| ==> '.' !in labels[i] by {
      forall i | 0 <= i < |labels|
        ensures '.' !in labels[i]
      {
        assert All(labels[i], IsHostChar);
      }
    }
    SplitJoin(labels, '.');
    JoinAll(labels, '.', IsLocalChar);
    assert '@' !in local by {
      assert All(local, IsLocalChar);
    }
    assert '@' !in domain by {
      assert All(domain, IsLocalChar);
    }
    SplitJoin([local, domain], '@');
    assert Join([local, domain], '@') == Assemble(local, labels);
  }

  /** The characters that may appear in a well-formed address. */
  predicate IsAddressChar(c: char) { IsLocalChar(c) || c == '@' }

  /** Every character of an assembled well-formed address is an address
      character. */
  lemma WellFormedChars(local: string, labels: seq<string>)
    requires WellFormed(local, labels)
    ensures All(Assemble(local, labels), IsAddressChar)
  {
    forall i | 0 <= i < |labels|
      ensures All(labels[i], IsAddressChar)
    {
      if i == |labels| - 1 {
        assert All(labels[i], IsLetter);
      } else {
        assert All(labels[i], IsHostChar);
      }
    }
    JoinAll(labels, '.', IsAddressChar);
    assert All(local, IsLocalChar);
  }

  /** Normalisation leaves alone a lower-case string of address characters
      that starts with a letter or digit. */
  lemma NormalizeKeepsClean(e: string)
    requires All(e, IsAddressChar) && NoUpper(e)
    requires |e| > 0 ==> IsAlphanumeric(e[0])
    ensures Normalize(e) == e
  {
    assert forall k :: 0 <= k < |e| ==> !IsWhitespace(e[k]) by {
      forall k | 0 <= k < |e|
        ensures !IsWhitespace(e[k])
      {
        assert IsAddressChar(e[k]);
      }
    }
    assert Trim(e) == e;
    assert DropWhile(e, IsNotAlphanumeric) == e;
    ToLowerKeepsLowered(e);
  }

  /** The normal form is the lower-cased rest of the trimmed candidate
      once its leading run of characters that are neither letters nor
      digits is dropped. */
  lemma NormalizeLowersSuffix(raw: string)
    ensures var t, r := Trim(raw), Normalize(raw);
            && |r| <= |t|
            && r == ToLower(t[|t| - |r|..])
            && forall j :: 0 <= j < |t| - |r| ==> !IsAlphanumeric(t[j])
  {
  }

  /** The normal form ends where the trimmed candidate ends, so it never
      ends in white space. */
  lemma NormalizeEndsClean(raw: string)
    ensures var n := Normalize(raw); |n| > 0 ==> !IsWhitespace(n[|n| - 1])
  {
    var n := Normalize(raw);
    var t := Trim(raw);
    NormalizeLowersSuffix(raw);
    if |n| > 0 {
      var u := t[|t| - |n|..];
      assert u[|u| - 1] == t[|t| - 1];
      ToLowerKeepsLast(u);
    }
  }

  lemma AlphanumericNotWhitespace(c: char)
    requires IsAlphanumeric(c)
    ensures !IsWhitespace(c)
  {
  }

  /** Normalising twice is normalising once. */
  lemma NormalizeIdempotent(raw: string)
    ensures Normalize(Normalize(raw)) == Normalize(raw)
  {
    var n := Normalize(raw);
    NormalizeEndsClean(raw);
    if |n| > 0 {
      AlphanumericNotWhitespace(n[0]);
    }
    TrimKeepsTrimmed(n);
    var d := DropWhile(n, IsNotAlphanumeric);
    assert d == n;
    ToLowerKeepsLowered(n);
    assert Normalize(n) == ToLower(d);
  }

  /** The pipeline sees a candidate only through its normal form. */
  lemma ProcessNormalized(raw: string)
    ensures Process(Normalize(raw)) == Process(raw)
  {
    NormalizeIdempotent(raw);
  }

  /** ROT13 keeps each character class of the address pattern. */
  lemma DecodeCharKeepsClasses(c: char)
    ensures IsLocalChar(c) ==> IsLocalChar(DecodeChar(c))
    ensures IsHostChar(c) ==> IsHostChar(DecodeChar(c))
    ensures IsLetter(c) ==> IsLetter(DecodeChar(c))
  {
  }

  /** Decoding a well-formed address decodes its pieces and keeps it
      well-formed. */
  lemma DecodeWellFormed(local: string, labels: seq<string>)
    requires WellFormed(local, labels)
    ensures WellFormed(Decode(local), DecodeAll(labels))
    ensures Decode(Assemble(local, labels)) == Assemble(Decode(local), DecodeAll(labels))
    ensures Last(DecodeAll(labels)) == Decode(Last(labels))
  {
    var d := Decode(local);
    forall i | 0 <= i < |d|
      ensures IsLocalChar(d[i])
    {
      assert IsLocalChar(local[i]);
      DecodeCharKeepsClasses(local[i]);
    }
    var dl := DecodeAll(labels);
    forall i | 0 <= i < |dl| - 1
      ensures IsHostLabel(dl[i])
    {
      assert IsHostLabel(labels[i]);
      forall k | 0 <= k < |dl[i]|
        ensures IsHostChar(dl[i][k])
      {
        assert IsHostChar(labels[i][k]);
        DecodeCharKeepsClasses(labels[i][k]);
      }
    }
    var t := Last(labels);
    forall k | 0 <= k < |Decode(t)|
      ensures IsLetter(Decode(t)[k])
    {
      assert IsLetter(t[k]);
    }
    DecodeJoin(labels, '.');
    DecodeConcat(local + "@", Join(labels, '.'));
    DecodeConcat(local, "@");
    assert Decode("@") == "@";
  }

  /** A suffix of a string without upper case has none either. */
  lemma NoUpperSuffix(s: string, t: string)
    requires NoUpper(s) && EndsWith(s, t)
    ensures NoUpper(t)
  {
    forall k | 0 <= k < |t|
      ensures !IsUpper(t[k])
    {
      assert t[k] == s[|s| - |t| + k];
    }
  }

  /** The facts about a clean, lower-case, well-formed address that the
      pipeline lemmas below share. */
  lemma CleanAddressFacts(local: string, labels: seq<string>)
    requires WellFormed(local, labels)
    requires NoUpper(Assemble(local, labels))
    requires IsAlphanumeric(local[0])
    ensures Normalize(Assemble(local, labels)) == Assemble(local, labels)
    ensures IsLikelyRot13Encoded(Assemble(local, labels)) <==> Decode(Last(labels)) in CommonTlds
    ensures NoUpper(Last(labels))
  {
    var e := Assemble(local, labels);
    WellFormedChars(local, labels);
    assert e[0] == local[0];
    NormalizeKeepsClean(e);
    HeuristicOnWellFormed(local, labels);
    AssembleEndsWithTld(local, labels);
    NoUpperSuffix(e, Last(labels));
  }

  /** A clean, lower-case, well-formed address whose last label has a
      listed ROT13 image is always replaced by its decoding, which is kept
      unless it looks like an asset file name. */
  lemma ProcessDecodesFlagged(local: string, labels: seq<string>)
    requires WellFormed(local, labels)
    requires NoUpper(Assemble(local, labels))
    requires IsAlphanumeric(local[0])
    requires Decode(Last(labels)) in CommonTlds
    ensures var e := Assemble(local, labels);
            Process(e) == (if IsAssetFilename(Decode(e)) then None else Some(Decode(e)))
  {
    CleanAddressFacts(local, labels);
    DecodeWellFormed(local, labels);
    ValidEmailAssembled(Decode(local), DecodeAll(labels));
    ToLowerKeepsLowered(Decode(Last(labels)));
  }

  /** A clean, lower-case, well-formed address whose last label has no
      listed ROT13 image is kept as it is exactly when its last label is
      listed and it does not look like an asset file name. */
  lemma ProcessKeepsUnflagged(local: string, labels: seq<string>)
    requires WellFormed(local, labels)
    requires NoUpper(Assemble(local, labels))
    requires IsAlphanumeric(local[0])
    requires Decode(Last(labels)) !in CommonTlds
    ensures var e := Assemble(local, labels);
            Process(e) == (if Last(labels) in CommonTlds && !IsAssetFilename(e) then Some(e) else None)
  {
    CleanAddressFacts(local, labels);
    ValidEmailAssembled(local, labels);
    ToLowerKeepsLowered(Last(labels));
  }
}

=== FILE: links.dfy ===
/** The two pieces of URL handling the crawler does itself: prefixing the
    seed URL with a scheme, and the prefix filter that `extract_links`
    applies to every `href` before handing it to the URL library. Parsing
    and joining URLs is the library's business and enters the model as the
    parameter `resolve`. */
module Links {
  import opened Wrappers
  import opened Strings

  predicate HasWebScheme(u: string) {
    StartsWith(u, "http://") || StartsWith(u, "https://")
  }

  /** The URL given on the command line, with `http://` put in front
      unless it already starts with `http://` or `https://`. */
  function NormalizeSeedUrl(input: string): (url: string)
    ensures HasWebScheme(url)
    ensures url == input || url == "http://" + input
    ensures HasWebScheme(input) ==> url == input
    ensures EndsWith(url, input)
  {
    if HasWebScheme(input) then input else "http://" + input
  }

  /** Normalising a normalised seed changes nothing. */
  lemma NormalizeSeedUrlIdempotent(input: string)
    ensures NormalizeSeedUrl(NormalizeSeedUrl(input)) == NormalizeSeedUrl(input)
  {
  }

  /** The prefix is added exactly when neither scheme is present, and it
      adds the seven characters of `http://`. */
  lemma NormalizeSeedUrlPrefixes(input: string)
    ensures NormalizeSeedUrl(input) != input <==> !HasWebScheme(input)
    ensures !HasWebScheme(input) ==> |NormalizeSeedUrl(input)| == |input| + 7
  {
  }

  /** Fragment, `mailto:`, `tel:`, `javascript:` and `data:` links are
      skipped; the comparison is case-sensitive. */
  predicate IsSkippedHref(href: string) {
    || StartsWith(href, "#")
    || StartsWith(href, "mailto:")
    || StartsWith(href, "tel:")
    || StartsWith(href, "javascript:")
    || StartsWith(href, "data:")
  }

  /** An `href` that starts with a web scheme is never skipped by the
      prefix filter. */
  lemma WebHrefNotSkipped(href: string)
    requires HasWebScheme(href)
    ensures !IsSkippedHref(href)
  {
    assert href[0] == 'h';
  }

  /** The filter compares schemes case-sensitively: an `href` that starts
      with an upper-case letter, such as `MAILTO:someone@example.com`, is
      never skipped and is handed on to URL resolution. */
  lemma UpperCaseHrefNotSkipped(href: string)
    requires |href| > 0 && IsUpper(href[0])
    ensures !IsSkippedHref(href)
  {
    assert forall p :: |p| > 0 && StartsWith(href, p) ==> p[0] == href[0];
  }

  /** The links of a page, in document order: every `href` the prefix
      filter lets through and `resolve` turns into an absolute web URL.
      `resolve(href, base)` stands for parsing `href` as an absolute URL
      (kept only with scheme `http` or `https`) or, failing that, joining
      it onto `base`. */
  function ExtractLinks(hrefs: seq<string>, base: string,
                        resolve: (string, string) -> Option<string>): (links: seq<string>)
    ensures |links| <= |hrefs|
    ensures forall l :: l in links <==>
      exists h :: h in hrefs && !IsSkippedHref(h) && resolve(h, base) == Some(l)
  {
    if |hrefs| == 0 then []
    else
      var rest := ExtractLinks(hrefs[1..], base, resolve);
      var h := hrefs[0];
      assert forall x :: x in hrefs <==> x == h || x in hrefs[1..];
      if IsSkippedHref(h) then
        rest
      else match resolve(h, base)
        case None => rest
        case Some(l) => [l] + rest
  }

  /** Extraction works `href` by `href`: the links of a concatenation are
      the concatenation of the links. */
  lemma {:induction false} ExtractLinksAppend(a: seq<string>, b: seq<string>, base: string,
                                              resolve: (string, string) -> Option<string>)
    ensures ExtractLinks(a + b, base, resolve) ==
            ExtractLinks(a, base, resolve) + ExtractLinks(b, base, resolve)
    decreases |a|
  {
    if |a| > 0 {
      assert (a + b)[1..] == a[1..] + b;
      ExtractLinksAppend(a[1..], b, base, resolve);
    } else {
      assert a + b == b;
    }
  }

  /** With a resolver that accepts every `href` unchanged, extraction is
      exactly the prefix filter. */
  lemma {:induction false} ExtractLinksIdentity(hrefs: seq<string>, base: string)
    ensures ExtractLinks(hrefs, base, (h, b) => Some(h)) == FilterKept(hrefs)
    decreases |hrefs|
  {
    if |hrefs| > 0 {
      ExtractLinksIdentity(hrefs[1..], base);
    }
  }

  /** The `href`s the prefix filter keeps, in order. */
  function FilterKept(hrefs: seq<string>): (kept: seq<string>)
    ensures forall h :: h in kept <==> h in hrefs && !IsSkippedHref(h)
  {
    if |hrefs| == 0 then []
    else
      assert forall x :: x in hrefs ==> x == hrefs[0] || x in hrefs[1..];
      (if IsSkippedHref(hrefs[0]) then [] else [hrefs[0]]) + FilterKept(hrefs[1..])
  }
}

=== FILE: rot13.dfy ===
/** The ROT13 letter substitution used to undo obfuscated addresses
    (src/main.rs `rot13_decode`): each ASCII letter moves 13 places round
    its own alphabet, every other character stays where it is. */
module Rot13 {
  import opened Strings

  function DecodeChar(c: char): (r: char)
    ensures IsLower(r) <==> IsLower(c)
    ensures IsUpper(r) <==> IsUpper(c)
    ensures IsLetter(c) ==> r != c
    ensures !IsLetter(c) ==> r == c
    ensures IsLetter(c) ==> (r as int - c as int) % 26 == 13
  {
    if IsLower(c) then ((c as int - 'a' as int + 13) % 26 + 'a' as int) as char
    else if IsUpper(c) then ((c as int - 'A' as int + 13) % 26 + 'A' as int) as char
    else c
  }

  /** Shifting by 13 twice is a full turn of the 26-letter alphabet. */
  lemma DecodeCharTwice(c: char)
    ensures DecodeChar(DecodeChar(c)) == c
  {
    if IsLower(c) {
      var x := c as int - 'a' as int;
      if x < 13 {
        assert DecodeChar(c) as int - 'a' as int == x + 13;
      } else {
        assert DecodeChar(c) as int - 'a' as int == x - 13;
      }
    } else if IsUpper(c) {
      var x := c as int - 'A' as int;
      if x < 13 {
        assert DecodeChar(c) as int - 'A' as int == x + 13;
      } else {
        assert DecodeChar(c) as int - 'A' as int == x - 13;
      }
    }
  }

  /** `rot13_decode`: the length, the case of every letter and every
      non-letter (`@`, `.`, digits, punctuation) are preserved, and every
      letter moves 13 places round its alphabet. */
  function Decode(s: string): (r: string)
    ensures |r| == |s|
    ensures forall i :: 0 <= i < |s| ==> (IsLower(r[i]) <==> IsLower(s[i]))
    ensures forall i :: 0 <= i < |s| ==> (IsUpper(r[i]) <==> IsUpper(s[i]))
    ensures forall i :: 0 <= i < |s| && !IsLetter(s[i]) ==> r[i] == s[i]
    ensures forall i :: 0 <= i < |s| && IsLetter(s[i]) ==> (r[i] as int - s[i] as int) % 26 == 13
  {
    seq(|s|, i requires 0 <= i < |s| => DecodeChar(s[i]))
  }

  /** ROT13 is an involution: decoding twice gives back the input. */
  lemma DecodeInvolution(s: string)
    ensures Decode(Decode(s)) == s
  {
    forall i | 0 <= i < |s|
      ensures Decode(Decode(s))[i] == s[i]
    {
      DecodeCharTwice(s[i]);
    }
  }

  /** A string containing a letter is never its own ROT13 image. */
  lemma DecodeMovesLetters(s: string, i: int)
    requires 0 <= i < |s| && IsLetter(s[i])
    ensures Decode(s) != s
  {
    assert Decode(s)[i] != s[i];
  }

  lemma DecodeConcat(a: string, b: string)
    ensures Decode(a + b) == Decode(a) + Decode(b)
  {
  }

  /** Every piece decoded. */
  function DecodeAll(parts: seq<string>): (r: seq<string>)
    ensures |r| == |parts|
  {
    seq(|parts|, i requires 0 <= i < |parts| => Decode(parts[i]))
  }

  /** Decoding commutes with splitting on a non-letter, so the `@` and `.`
      structure of a string is the same before and after decoding. */
  lemma {:induction false} DecodeSplit(s: string, sep: char)
    requires !IsLetter(sep)
    ensures Split(Decode(s), sep) == DecodeAll(Split(s, sep))
    decreases |s|
  {
    if |s| > 0 {
      var d := Decode(s);
      assert d[1..] == Decode(s[1..]);
      assert d[0] == sep <==> s[0] == sep;
      DecodeSplit(s[1..], sep);
      var rest := Split(s[1..], sep);
      if s[0] != sep {
        assert Decode([s[0]] + rest[0]) == [d[0]] + Decode(rest[0]);
        assert DecodeAll(rest)[1..] == DecodeAll(rest[1..]);
      } else {
        assert DecodeAll([""] + rest) == [""] + DecodeAll(rest);
      }
    }
  }

  /** Decoding commutes with joining on a non-letter. */
  lemma {:induction false} DecodeJoin(parts: seq<string>, sep: char)
    requires !IsLetter(sep)
    ensures Decode(Join(parts, sep)) == Join(DecodeAll(parts), sep)
    decreases |parts|
  {
    if |parts| > 1 {
      DecodeJoin(parts[1..], sep);
      assert DecodeAll(parts)[1..] == DecodeAll(parts[1..]);
      assert Decode([sep]) == [sep];
      DecodeConcat(parts[0] + [sep], Join(parts[1..], sep));
      DecodeConcat(parts[0], [sep]);
    }
  }
}

=== FILE: strings.dfy ===
/** ASCII character classes and the string primitives the harvester relies on:
    case folding, prefix, suffix and substring checks, trimming and splitting
    on a separator character. */
module Strings {

  predicate IsUpper(c: char) { 'A' <= c <= 'Z' }

  predicate IsLower(c: char) { 'a' <= c <= 'z' }

  predicate IsLetter(c: char) { IsUpper(c) || IsLower(c) }

  predicate IsDigit(c: char) { '0' <= c <= '9' }

  predicate IsAlphanumeric(c: char) { IsLetter(c) || IsDigit(c) }

  /** White space within ASCII, as `char::is_whitespace` classifies it:
      tab, line feed, vertical tab, form feed, carriage return and space. */
  predicate IsWhitespace(c: char) { c == ' ' || '\t' <= c <= '\r' }

  /** No upper-case ASCII letter occurs in `s`. */
  predicate NoUpper(s: string) {
    forall i :: 0 <= i < |s| ==> !IsUpper(s[i])
  }

  /** ASCII lower-casing of one character; everything but `A`-`Z` is kept. */
  function LowerChar(c: char): (r: char)
    ensures !IsUpper(r)
    ensures IsLetter(r) <==> IsLetter(c)
    ensures IsDigit(r) <==> IsDigit(c)
    ensures !IsUpper(c) ==> r == c
    ensures IsUpper(c) ==> r as int - 'a' as int == c as int - 'A' as int
  {
    if IsUpper(c) then (c as int - 'A' as int + 'a' as int) as char else c
  }

  /** `to_lowercase` on ASCII: each upper-case letter becomes the same
      letter in lower case, every other character stays. */
  function ToLower(s: string): (r: string)
    ensures |r| == |s|
    ensures NoUpper(r)
    ensures forall i :: 0 <= i < |s| && !IsUpper(s[i]) ==> r[i] == s[i]
    ensures forall i :: 0 <= i < |s| && IsUpper(s[i]) ==>
              r[i] as int - 'a' as int == s[i] as int - 'A' as int
  {
    seq(|s|, i requires 0 <= i < |s| => LowerChar(s[i]))
  }

  /** Lower-casing never turns a character into white space, so a string
      whose last character is not white space keeps that property. */
  lemma ToLowerKeepsLast(s: string)
    requires |s| > 0 && !IsWhitespace(s[|s| - 1])
    ensures !IsWhitespace(ToLower(s)[|s| - 1])
  {
  }

  /** Lower-casing changes nothing in a string without upper-case letters,
      so it is idempotent. */
  lemma ToLowerKeepsLowered(s: string)
    requires NoUpper(s)
    ensures ToLower(s) == s
  {
  }

  predicate StartsWith(s: string, prefix: string) {
    |prefix| <= |s| && s[..|prefix|] == prefix
  }

  predicate EndsWith(s: string, suffix: string) {
    |suffix| <= |s| && s[|s| - |suffix|..] == suffix
  }

  /** `t` occurs somewhere in `s` (the check behind `str::contains`). */
  predicate Contains(s: string, t: string)
    decreases |s|
  {
    StartsWith(s, t) || (|s| > 0 && Contains(s[1..], t))
  }

  /** `t` occurs in `s` starting at position `i`. */
  predicate OccursAt(s: string, t: string, i: int) {
    0 <= i <= |s| - |t| && s[i..i + |t|] == t
  }

  /** The recursive substring check agrees with the positional definition. */
  lemma {:induction false} ContainsIff(s: string, t: string)
    ensures Contains(s, t) <==> exists i :: OccursAt(s, t, i)
    decreases |s|
  {
    if Contains(s, t) {
      if StartsWith(s, t) {
        assert OccursAt(s, t, 0);
      } else {
        ContainsIff(s[1..], t);
        var j :| OccursAt(s[1..], t, j);
        assert s[j + 1..j + 1 + |t|] == s[1..][j..j + |t|];
        assert OccursAt(s, t, j + 1);
      }
    }
    if i :| OccursAt(s, t, i) {
      if i == 0 {
        assert StartsWith(s, t);
      } else {
        assert s[1..][i - 1..i - 1 + |t|] == s[i..i + |t|];
        assert OccursAt(s[1..], t, i - 1);
        ContainsIff(s[1..], t);
      }
    }
  }

  /** A string lacking some character of `t` does not contain `t`. */
  lemma {:induction false} MissingCharExcludes(s: string, t: string, c: char)
    requires c in t && c !in s
    ensures !Contains(s, t)
    decreases |s|
  {
    var i :| 0 <= i < |t| && t[i] == c;
    if i < |s| {
      assert s[i] != c;
    }
    if |t| <= |s| {
      assert s[..|t|][i] != t[i];
    }
    if |s| > 0 {
      MissingCharExcludes(s[1..], t, c);
    }
  }

  /** Occurrences of `t` cannot start inside a prefix lacking `t`'s first
      character. */
  lemma {:induction false} ContainsSkipsPrefix(a: string, rest: string, t: string)
    requires |t| > 0 && t[0] !in a
    ensures Contains(a + rest, t) <==> Contains(rest, t)
    decreases |a|
  {
    if |a| > 0 {
      assert (a + rest)[1..] == a[1..] + rest;
      ContainsSkipsPrefix(a[1..], rest, t);
    } else {
      assert a + rest == rest;
    }
  }

  /** The longest suffix of `s` whose first character fails `p`:
      `s` with its leading run of `p`-characters removed. */
  function DropWhile(s: string, p: char -> bool): (r: string)
    ensures |r| <= |s| && r == s[|s| - |r|..]
    ensures forall k :: 0 <= k < |s| - |r| ==> p(s[k])
    ensures |r| > 0 ==> !p(r[0])
    decreases |s|
  {
    if |s| > 0 && p(s[0]) then DropWhile(s[1..], p) else s
  }

  /** The longest prefix of `s` whose last character fails `p`:
      `s` with its trailing run of `p`-characters removed. */
  function DropWhileEnd(s: string, p: char -> bool): (r: string)
    ensures |r| <= |s| && r == s[..|r|]
    ensures forall k :: |r| <= k < |s| ==> p(s[k])
    ensures |r| > 0 ==> !p(r[|r| - 1])
    decreases |s|
  {
    if |s| > 0 && p(s[|s| - 1]) then DropWhileEnd(s[..|s| - 1], p) else s
  }

  /** `str::trim`: leading and trailing white space removed. */
  function Trim(s: string): (r: string)
    ensures |r| > 0 ==> !IsWhitespace(r[0]) && !IsWhitespace(r[|r| - 1])
    ensures (forall k :: 0 <= k < |s| ==> !IsWhitespace(s[k])) ==> r == s
  {
    DropWhileEnd(DropWhile(s, IsWhitespace), IsWhitespace)
  }

  /** A string that neither starts nor ends with white space is its own
      trim. */
  lemma TrimKeepsTrimmed(s: string)
    requires |s| > 0 ==> !IsWhitespace(s[0]) && !IsWhitespace(s[|s| - 1])
    ensures Trim(s) == s
  {
    assert DropWhile(s, IsWhitespace) == s;
  }

  /** The pieces of `s` between occurrences of `sep` (`str::split` with a
      character pattern): always at least one piece, none containing `sep`. */
  function Split(s: string, sep: char): (parts: seq<string>)
    ensures |parts| >= 1
    ensures forall i :: 0 <= i < |parts| ==> sep !in parts[i]
    decreases |s|
  {
    if |s| == 0 then [""]
    else
      var rest := Split(s[1..], sep);
      if s[0] == sep then [""] + rest
      else [[s[0]] + rest[0]] + rest[1..]
  }

  /** The pieces joined back together with `sep` between neighbours. */
  function Join(parts: seq<string>, sep: char): string
    decreases |parts|
  {
    if |parts| == 0 then ""
    else if |parts| == 1 then parts[0]
    else parts[0] + [sep] + Join(parts[1..], sep)
  }

  function Last(parts: seq<string>): string
    requires |parts| >= 1
  {
    parts[|parts| - 1]
  }

  lemma JoinCons(p: string, ps: seq<string>, sep: char)
    requires |ps| >= 1
    ensures Join([p] + ps, sep) == p + [sep] + Join(ps, sep)
  {
    assert ([p] + ps)[1..] == ps;
  }

  lemma JoinExtendFirst(c: string, parts: seq<string>, sep: char)
    requires |parts| >= 1
    ensures Join([c + parts[0]] + parts[1..], sep) == c + Join(parts, sep)
  {
    if |parts| > 1 {
      JoinCons(c + parts[0], parts[1..], sep);
    }
  }

  /** Joining the pieces of a split gives back the original string. */
  lemma {:induction false} JoinSplit(s: string, sep: char)
    ensures Join(Split(s, sep), sep) == s
    decreases |s|
  {
    if |s| > 0 {
      var rest := Split(s[1..], sep);
      JoinSplit(s[1..], sep);
      if s[0] == sep {
        JoinCons("", rest, sep);
      } else {
        JoinExtendFirst([s[0]], rest, sep);
      }
    }
  }

  /** A prefix free of `sep` is glued onto the first piece of what follows. */
  lemma {:induction false} SplitFreePrefix(a: string, rest: string, sep: char)
    requires sep !in a
    ensures Split(a + rest, sep) == [a + Split(rest, sep)[0]] + Split(rest, sep)[1..]
    decreases |a|
  {
    if |a| == 0 {
      var r := Split(rest, sep);
      assert a + rest == rest;
      assert a + r[0] == r[0];
      assert [r[0]] + r[1..] == r;
    } else {
      assert (a + rest)[1..] == a[1..] + rest;
      SplitFreePrefix(a[1..], rest, sep);
      assert [a[0]] + (a[1..] + Split(rest, sep)[0]) == a + Split(rest, sep)[0];
    }
  }

  /** Splitting a join of `sep`-free pieces gives back the pieces. */
  lemma {:induction false} SplitJoin(parts: seq<string>, sep: char)
    requires |parts| >= 1
    requires forall i :: 0 <= i < |parts| ==> sep !in parts[i]
    ensures Split(Join(parts, sep), sep) == parts
    decreases |parts|
  {
    if |parts| == 1 {
      SplitFreePrefix(parts[0], "", sep);
      assert parts[0] + "" == parts[0];
    } else {
      var tail := Join(parts[1..], sep);
      SplitJoin(parts[1..], sep);
      assert ([sep] + tail)[1..] == tail;
      assert Split([sep] + tail, sep) == [""] + parts[1..];
      SplitFreePrefix(parts[0], [sep] + tail, sep);
      assert parts[0] + [sep] + tail == parts[0] + ([sep] + tail);
      assert parts[0] + "" == parts[0];
    }
  }

  /** Every character of `s` satisfies `p`. */
  predicate All(s: string, p: char -> bool) {
    forall i :: 0 <= i < |s| ==> p(s[i])
  }

  /** A character property held by the separator and by every character of
      every piece holds throughout the join. */
  lemma {:induction false} JoinAll(parts: seq<string>, sep: char, p: char -> bool)
    requires p(sep)
    requires forall i :: 0 <= i < |parts| ==> All(parts[i], p)
    ensures All(Join(parts, sep), p)
    decreases |parts|
  {
    if |parts| > 1 {
      JoinAll(parts[1..], sep, p);
      var rest := Join(parts[1..], sep);
      assert Join(parts, sep) == parts[0] + [sep] + rest;
      forall i | 0 <= i < |Join(parts, sep)|
        ensures p(Join(parts, sep)[i])
      {
        if i < |parts[0]| {
          assert Join(parts, sep)[i] == parts[0][i];
        } else if i > |parts[0]| {
          assert Join(parts, sep)[i] == rest[i - |parts[0]| - 1];
        }
      }
    }
  }

  /** The join ends with the last piece. */
  lemma {:induction false} JoinEndsWithLast(parts: seq<string>, sep: char)
    requires |parts| >= 1
    ensures EndsWith(Join(parts, sep), Last(parts))
    decreases |parts|
  {
    if |parts| > 1 {
      JoinEndsWithLast(parts[1..], sep);
      assert Last(parts[1..]) == Last(parts);
    }
  }

  /** A string splits into a single piece exactly when it has no
      separator. */
  lemma SplitSingle(s: string, sep: char)
    ensures sep !in s <==> |Split(s, sep)| == 1
  {
    var parts := Split(s, sep);
    JoinSplit(s, sep);
    if |parts| >= 2 {
      assert Join(parts, sep) == parts[0] + [sep] + Join(parts[1..], sep);
      assert s[|parts[0]|] == sep;
    }
  }

  /** With at least two pieces, `s` is the first piece, the separator, the
      second piece, and then either nothing or text starting with the
      separator. */
  lemma SplitFirstTwo(s: string, sep: char)
    requires |Split(s, sep)| >= 2
    ensures var parts := Split(s, sep);
            var b := if |parts| > 2 then [sep] + Join(parts[2..], sep) else "";
            s == parts[0] + [sep] + parts[1] + b
  {
    var parts := Split(s, sep);
    JoinSplit(s, sep);
    assert Join(parts, sep) == parts[0] + [sep] + Join(parts[1..], sep);
    assert parts[1..][1..] == parts[2..];
    if |parts| > 2 {
      assert Join(parts[1..], sep) == parts[1] + [sep] + Join(parts[2..], sep);
    }
  }
}

=== FILE: tld_images.dfy ===
/** Which entries of the TLD allow-list the ROT13 heuristic mistakes for
    obfuscated ones: exactly `fr` and `se`, the only listed TLDs whose ROT13
    image is listed too.

    The per-entry lemmas below look alike but are kept apart on purpose:
    each decodes one literal and checks it against the 31-entry list, and
    putting more than a handful of those in one proof makes the solver run
    out of resources. One small lemma per entry keeps every proof cheap. */
module TldImages {
  import opened Wrappers
  import opened Strings
  import opened Rot13
  import opened Emails

  lemma ComImage()
    ensures Decode("com") !in CommonTlds
  {
    var d := Decode("com");
    assert d[0] == 'p' && d[1] == 'b' && d[2] == 'z';
  }

  lemma OrgImage()
    ensures Decode("org") !in CommonTlds
  {
    var d := Decode("org");
    assert d[0] == 'b' && d[1] == 'e' && d[2] == 't';
  }

  lemma NetImage()
    ensures Decode("net") !in CommonTlds
  {
    var d := Decode("net");
    assert d[0] == 'a' && d[1] == 'r' && d[2] == 'g';
  }

  lemma EduImage()
    ensures Decode("edu") !in CommonTlds
  {
    var d := Decode("edu");
    assert d[0] == 'r' && d[1] == 'q' && d[2] == 'h';
  }

  lemma GovImage()
    ensures Decode("gov") !in CommonTlds
  {
    var d := Decode("gov");
    assert d[0] == 't' && d[1] == 'b' && d[2] == 'i';
  }

  lemma MilImage()
    ensures Decode("mil") !in CommonTlds
  {
    var d := Decode("mil");
    assert d[0] == 'z' && d[1] == 'v' && d[2] == 'y';
  }

  lemma IntImage()
    ensures Decode("int") !in CommonTlds
  {
    var d := Decode("int");
    assert d[0] == 'v' && d[1] == 'a' && d[2] == 'g';
  }

  lemma CoImage()
    ensures Decode("co") !in CommonTlds
  {
    var d := Decode("co");
    assert d[0] == 'p' && d[1] == 'b';
  }

  lemma IoImage()
    ensures Decode("io") !in CommonTlds
  {
    var d := Decode("io");
    assert d[0] == 'v' && d[1] == 'b';
  }

  lemma MeImage()
    ensures Decode("me") !in CommonTlds
  {
    var d := Decode("me");
    assert d[0] == 'z' && d[1] == 'r';
  }

  lemma BizImage()
    ensures Decode("biz") !in CommonTlds
  {
    var d := Decode("biz");
    assert d[0] == 'o' && d[1] == 'v' && d[2] == 'm';
  }

  lemma InfoImage()
    ensures Decode("info") !in CommonTlds
  {
    var d := Decode("info");
    assert d[0] == 'v' && d[1] == 'a' && d[2] == 's' && d[3] == 'b';
  }

  lemma UsImage()
    ensures Decode("us") !in CommonTlds
  {
    var d := Decode("us");
    assert d[0] == 'h' && d[1] == 'f';
  }

  lemma UkImage()
    ensures Decode("uk") !in CommonTlds
  {
    var d := Decode("uk");
    assert d[0] == 'h' && d[1] == 'x';
  }

  lemma CaImage()
    ensures Decode("ca") !in CommonTlds
  {
    var d := Decode("ca");
    assert d[0] == 'p' && d[1] == 'n';
  }

  lemma DeImage()
    ensures Decode("de") !in CommonTlds
  {
    var d := Decode("de");
    assert d[0] == 'q' && d[1] == 'r';
  }

  lemma JpImage()
    ensures Decode("jp") !in CommonTlds
  {
    var d := Decode("jp");
    assert d[0] == 'w' && d[1] == 'c';
  }

  lemma AuImage()
    ensures Decode("au") !in CommonTlds
  {
    var d := Decode("au");
    assert d[0] == 'n' && d[1] == 'h';
  }

  lemma RuImage()
    ensures Decode("ru") !in CommonTlds
  {
    var d := Decode("ru");
    assert d[0] == 'e' && d[1] == 'h';
  }

  lemma ChImage()
    ensures Decode("ch") !in CommonTlds
  {
    var d := Decode("ch");
    assert d[0] == 'p' && d[1] == 'u';
  }

  lemma ItImage()
    ensures Decode("it") !in CommonTlds
  {
    var d := Decode("it");
    assert d[0] == 'v' && d[1] == 'g';
  }

  lemma NlImage()
    ensures Decode("nl") !in CommonTlds
  {
    var d := Decode("nl");
    assert d[0] == 'a' && d[1] == 'y';
  }

  lemma NoImage()
    ensures Decode("no") !in CommonTlds
  {
    var d := Decode("no");
    assert d[0] == 'a' && d[1] == 'b';
  }

  lemma EsImage()
    ensures Decode("es") !in CommonTlds
  {
    var d := Decode("es");
    assert d[0] == 'r' && d[1] == 'f';
  }

  lemma TvImage()
    ensures Decode("tv") !in CommonTlds
  {
    var d := Decode("tv");
    assert d[0] == 'g' && d[1] == 'i';
  }

  lemma LyImage()
    ensures Decode("ly") !in CommonTlds
  {
    var d := Decode("ly");
    assert d[0] == 'y' && d[1] == 'l';
  }

  lemma FrSeImages()
    ensures Decode("fr") == "se" && Decode("se") == "fr"
    ensures "fr" in CommonTlds && "se" in CommonTlds
  {
    var d := Decode("fr");
    assert d[0] == 's' && d[1] == 'e';
    var e := Decode("se");
    assert e[0] == 'f' && e[1] == 'r';
  }

  /** A listed TLD has a listed ROT13 image exactly when it is `fr` or
      `se`. */
  lemma ListedImages(t: string)
    requires t in CommonTlds
    ensures Decode(t) in CommonTlds <==> t == "fr" || t == "se"
  {
    if t == "fr" || t == "se" {
      FrSeImages();
    } else if t == "com" {
      ComImage();
    } else if t == "org" {
      OrgImage();
    } else if t == "net" {
      NetImage();
    } else if t == "edu" {
      EduImage();
    } else if t == "gov" {
      GovImage();
    } else if t == "mil" {
      MilImage();
    } else if t == "int" {
      IntImage();
    } else if t == "co" {
      CoImage();
    } else if t == "io" {
      IoImage();
    } else if t == "me" {
      MeImage();
    } else if t == "biz" {
      BizImage();
    } else if t == "info" {
      InfoImage();
    } else if t == "us" {
      UsImage();
    } else if t == "uk" {
      UkImage();
    } else if t == "ca" {
      CaImage();
    } else if t == "de" {
      DeImage();
    } else if t == "jp" {
      JpImage();
    } else if t == "au" {
      AuImage();
    } else if t == "ru" {
      RuImage();
    } else if t == "ch" {
      ChImage();
    } else if t == "it" {
      ItImage();
    } else if t == "nl" {
      NlImage();
    } else if t == "no" {
      NoImage();
    } else if t == "es" {
      EsImage();
    } else if t == "tv" {
      TvImage();
    } else {
      assert t == "ly";
      LyImage();
    }
  }

  /** A clean address with a listed TLD other than `fr` and `se` is
      recorded exactly as written, unless it looks like an asset. */
  lemma ListedAddressKept(local: string, labels: seq<string>)
    requires WellFormed(local, labels)
    requires NoUpper(Assemble(local, labels))
    requires IsAlphanumeric(local[0])
    requires Last(labels) in CommonTlds && Last(labels) != "fr" && Last(labels) != "se"
    ensures var e := Assemble(local, labels);
            Process(e) == (if IsAssetFilename(e) then None else Some(e))
  {
    ListedImages(Last(labels));
    ProcessKeepsUnflagged(local, labels);
  }

  /** A clean address ending in `fr` or `se` is always recorded in its ROT13
      form, with the other of the two TLDs, unless that looks like an asset. */
  lemma FrSeAddressSwapped(local: string, labels: seq<string>)
    requires WellFormed(local, labels)
    requires NoUpper(Assemble(local, labels))
    requires IsAlphanumeric(local[0])
    requires Last(labels) == "fr" || Last(labels) == "se"
    ensures var e := Assemble(local, labels);
            Process(e) == (if IsAssetFilename(Decode(e)) then None else Some(Decode(e)))
    ensures EndsWith(Decode(Assemble(local, labels)), if Last(labels) == "fr" then "se" else "fr")
  {
    FrSeImages();
    ProcessDecodesFlagged(local, labels);
    DecodeWellFormed(local, labels);
    AssembleEndsWithTld(Decode(local), DecodeAll(labels));
  }
}

=== FILE: wrappers.dfy ===
/** The optional value used wherever the harvester may produce nothing:
    a discarded candidate, a failed fetch or a link that does not resolve. */
module Wrappers {

  datatype Option<+T> = None | Some(value: T)
}
